=== FILE: README.md ===
# missevan-danmaku-stats in Dafny

This project models how missevan-danmaku-stats counts the distinct listeners who posted
danmaku (bullet comments) on the paid episodes of a MissEvan radio drama. It models these parts:

- **Episode discovery** (`get_drama_sounds`): the `getdrama` reply is normalised into one flat
  list of episode records, and only the paid ones (`need_pay == 1`) are kept (`Catalog`).
- **Participant extraction** (`get_danmaku_ids`): field 6 of each `<d>` element's `p` attribute
  is read as an integer user id (`Danmaku`). This uses Python's `int()` on strings (`Numerals`)
  and `str.split(',')` (`Fields`).
- **Title search** (`search_drama`, `get_drama_by_name`): a search reply's items are kept when
  they have a truthy id and at least one paid episode, and a name picks among them (`Search`).
- **The crawl job** (`crawl_drama`): the progress events the job puts on its queue, in order. The
  command-line `main` folds the same running set of user ids and reports the same count (`Crawl`).
- **The job registry** (`start_crawl`, `get_progress`): an id is validated, a fresh queue is
  registered under it, and polls drain that queue (`Jobs`).

Decoded JSON is the `Json` datatype in `JsonValue`. An object keeps its members as the text
lists them, repeated names included. Lookups and iteration follow the dict `json.loads` builds:
a repeated name takes the value of its last occurrence (`JsonValue.Lookup`), and iteration visits
each name once, at its first position (`JsonValue.DictItems`). Truthiness and `== 1` follow
Python, so `true == 1` holds. Each HTTP exchange is a parameter:
- `catalog` gives the `getdrama` reply for an id.
- `info` gives the `getsound` reply `main` asks for an id.
- `probe` gives what the per-episode crawler call produced for a sound id.
- A search reply is passed in directly.

Every result is stated for all such replies.

The code as modelled:
- The job is sequential: one loop over the paid episodes, with no worker pool.
- The job's first event is an informational message sent before the episode list is fetched.
  So a title with no paid episode yields that message followed by one error.
- The search sends the keyword to the search service and nothing else; an integer keyword is
  not treated as an id.

## Model

| member | source | states |
|---|---|---|
| Numerals.ParseInt | crawler.py:68 | `int()` succeeds only on text holding a digit; otherwise it takes the `ValueError` path (the full shape it accepts is stated by `Numerals.ParseIntAccepts` and `Numerals.ParseIntShape`) |
| Numerals.ParseIntAccepts | crawler.py:68 | `int()` accepts whitespace, an optional sign, a digit run of at most 4300 digits with leading zeros and single underscores between digits, and whitespace, and returns the signed value of the digits |
| Numerals.ParseIntShape | crawler.py:68 | `int()` accepts nothing else: converted text is always whitespace, an optional sign, such a digit run and whitespace, with the run's signed value |
| Numerals.PlusSignedNumeral | crawler.py:68 | example: `int("+5")` is 5 |
| Numerals.PaddedNegativeNumeral | crawler.py:68 | example: `int(" -42\n")` is -42 |
| Numerals.ZeroPaddedNumeral | crawler.py:68 | example: `int("007")` is 7 |
| Numerals.SeparatedNumeral | crawler.py:68 | example: `int("1_000")` is 1000 |
| Numerals.StrayCharacterRejected | crawler.py:68-72 | example: `"12x"` and `"1 2"` raise `ValueError`, so the entry is skipped |
| Numerals.MisplacedSeparatorRejected | crawler.py:68-72 | example: `"1__0"` and `"_1"` raise `ValueError`, so the entry is skipped |
| Numerals.ParseShowRoundTrip | crawler.py:68 | `int()` reads back every integer of at most 4300 digits, negative ones included, from its decimal text |
| Numerals.LongNumeralRejected | crawler.py:68 | a well-formed numeral of more than 4300 digits is rejected, as CPython's default digit cap makes `int()` raise |
| Numerals.ParseIgnoresSpaces | crawler.py:68 | `int()` ignores leading and trailing whitespace around the text it parses |
| Numerals.TrimStart | crawler.py:68 | the leading whitespace `int()` ignores is removed, and only whitespace is removed |
| Numerals.TrimEnd | crawler.py:68 | the trailing whitespace `int()` ignores is removed, and only whitespace is removed |
| Fields.Split | crawler.py:66 | `split(',')` gives one more field than there are commas, none containing a comma |
| Fields.JoinSplit | crawler.py:66 | rejoining the fields with commas gives back the attribute string |
| Fields.SplitJoin | crawler.py:66 | splitting comma-joined comma-free fields gives back exactly those fields |
| JsonValue.Lookup | crawler.py:97-98 | `data[key]` finds a value exactly when some member has that name, and the value is that of the last such member |
| JsonValue.LookupAppend | crawler.py:97-98 | a later member overrides an earlier one of the same name |
| JsonValue.DictItemsLookup | crawler.py:110-112 | the items a dict-shaped `episodes` iterates over hold, under every name, exactly the value a lookup gives |
| JsonValue.DictItemsDistinct | crawler.py:110-112 | iteration visits no name twice |
| JsonValue.DistinctDictItems | crawler.py:110-112 | without repeated names, iteration visits the members as written, in order |
| Danmaku.UserId | crawler.py:66-68 | an attribute yields a user id only if it has at least six commas |
| Danmaku.UserIdOfFields | crawler.py:66-69 | an attribute of comma-free fields yields what field 6 parses to when there are at least seven fields, and nothing otherwise |
| Danmaku.Scan | crawler.py:63-72 | the entry loop fails if and only if some `<d>` has no `p`; otherwise it collects exactly the ids some entry yields |
| Danmaku.DanmakuIds | crawler.py:50-87 | request, XML or missing-attribute failures give the empty set; otherwise a user id is in the set if and only if some entry's seventh field parses to it |
| Danmaku.SkippedEntryChangesNothing | crawler.py:66-72 | removing an entry whose attribute yields no user id (fewer than seven fields, or an unparsable seventh) leaves the set unchanged |
| Danmaku.SampleAttrUser | crawler.py:65-68 | example: one eight-field attribute whose field 6 is `42` yields user 42 |
| Danmaku.ShortEntrySkippedExample | crawler.py:67-69 | example: a three-field entry contributes nothing while a later full entry still counts |
| Danmaku.MissingAttrExample | crawler.py:85-87 | example: one `<d>` without `p` discards the whole episode's set |
| Sequences.FilterCounts | crawler.py:105-107 | the comprehension filter keeps each kept element exactly as often as it occurs and drops the rest |
| Sequences.FilterAppend | crawler.py:119-121 | filtering a concatenation filters each part in order |
| Catalog.Flatten | crawler.py:111-116 | a record is in the flattened list if and only if some dict value contributes it (a non-empty list its items, a dict itself) |
| Catalog.FlattenAppend | crawler.py:112-116 | flattening follows the dict's iteration order |
| Catalog.Episodes | crawler.py:97-116 | an episode list comes from a reply if and only if it is a dict body with a truthy `success`, a dict `info` and an `episodes` (`[]` when missing) that is a list or a dict |
| Catalog.GetDramaSounds | crawler.py:89-129 | every returned episode is paid, and an unusable reply gives none |
| Catalog.GetDramaSoundsCounts | crawler.py:119-122 | the paid episodes are exactly the paid records of the normalised list, with multiplicity |
| Catalog.ReplyEpisodes | crawler.py:97-116 | any successful body with a list, dict or other `episodes` normalises to its items, its flattened dict items, or nothing |
| Catalog.ListShapedEpisodes | crawler.py:97-108 | in any successful body, a list-shaped `episodes` gives exactly its paid dict entries, in order |
| Catalog.DictShapedEpisodes | crawler.py:97-122 | in any successful body, a dict-shaped `episodes` of any size gives the paid records of each of its items in turn, and of each value as written when no name repeats |
| Catalog.RepeatedGroupLastWins | crawler.py:110-116 | a name repeated in a dict-shaped `episodes` contributes only its last value |
| Catalog.RepeatedSuccessLastWins | crawler.py:97-108 | example: a repeated `success` is read from its last occurrence |
| Catalog.UnusableRepliesGiveNothing | crawler.py:92-129 | an unreachable service, a non-dict body, a missing or falsy `success`, a missing or non-dict `info`, or an `episodes` that is neither list nor dict give no episodes |
| Search.ResultItems | crawler.py:180-185 | search items come only from a dict body with a truthy `success`, and a body whose `info` (`{}` when missing) holds the list `Datas` yields exactly that list |
| Search.SearchKeepsListedItems | crawler.py:180-209 | for a body listing `Datas` items, the reported titles are the summaries of the listed items in item order: a summary is reported exactly when some item is a dict with a truthy id whose title has paid episodes and formats to it |
| Search.UnlistedSearchGivesNothing | crawler.py:180-185 | a non-dict body, a falsy `success`, a non-dict `info` or a `Datas` that is not a list reports no title |
| Search.Collect | crawler.py:189-212 | at most one summary per item, and every reported id is truthy and passes the paid-episode lookup |
| Search.CollectMembers | crawler.py:190-206 | a summary is reported if and only if some item is a dict with a truthy id for which the episode lookup finds paid episodes, and formats to it |
| Search.CollectAppend | crawler.py:190-209 | items are formatted independently and in order |
| Search.SearchDrama | crawler.py:161-212 | no more titles than search items, each with a truthy id whose title has paid episodes |
| Search.FirstNamed | crawler.py:232-234 | finds the first result whose name equals the query exactly, or reports that there is none |
| Search.PickByName | crawler.py:228-237 | no results give nothing; otherwise the first exact name match is chosen, else the first result |
| Search.GetDramaByName | crawler.py:224-241 | a found title is one of the search results and has a truthy id; nothing is found exactly when the search reports nothing |
| Search.FoundTitleIsListed | crawler.py:224-237 | a title found by name comes from a search item that is a dict with a truthy id whose title has paid episodes |
| Crawl.Classify | app.py:42-56 | a non-dict record fails before its progress event; a dict without a truthy sound id is only announced; a raising crawler call fails after it; the title is the record's `name` or the default; otherwise the episode's ids are exactly what `get_danmaku_ids` returned |
| Crawl.Step | app.py:42-72 | one iteration adds exactly its episode's ids to the running set; a dict episode's first event is its progress event; an episode without a sound id emits only that; an error is emitted exactly when the iteration fails; a fetched episode reports the size of its id set and then the size of the new running set |
| Crawl.UnionAllMembers | app.py:39-56 | the running set is the union of the episodes' id sets |
| Crawl.LoopSeen | app.py:39-56 | after the loop the running set is the starting set plus every fetched episode's ids |
| Crawl.ParticipantsMembers | app.py:39-62 | a user id is in the job's final set exactly when some episode is a dict with a truthy sound id whose `get_danmaku_ids` result holds it |
| Crawl.EpisodeOrderIrrelevant | app.py:39-56 | the final distinct-user set does not depend on the order of the episodes |
| Crawl.DuplicatesCountOnce | app.py:56-78 | example: episodes with users {1,2,3}, {2,3,4} and {5} complete with the count 5 |
| Crawl.CrawlDrama | app.py:14-78 | the job opens with the fetching message and ends with either the no-episodes error or its count |
| Crawl.EmptyCatalogTrace | app.py:19-32 | a title without paid episodes yields exactly the opening message and the no-episodes error, and only such a title does |
| Crawl.CompleteIsLast | app.py:34-78 | a job with episodes opens with the fetching and found messages and ends with its single `Complete`, whose count is the size of the union of the per-episode sets |
| Crawl.ProgressCountsEpisodes | app.py:42-52 | the progress counters run 1, 2, …, n in order, each with total n |
| Crawl.LoopReportsCounts | app.py:56-65 | every fetched episode reports the size of its own id set and the size of the running set after it, the union of its ids with those of the episodes before it |
| Crawl.RunningCountsMonotone | app.py:56-65 | every fetched episode's two count events are in the trace, the second carrying the union size so far; the cumulative counts never decrease, each is at least the count of its episode, and none exceeds the final count |
| Crawl.EpisodeFailureNotTerminal | app.py:67-72 | an episode error is reported exactly when some iteration fails, and the job still completes |
| Crawl.CrawlDramaTrace | app.py:14-78 | for a title with paid episodes, the counters run 1 to the number of paid episodes and the last event is the size of the job's final set, the union of the episodes' `get_danmaku_ids` results |
| Crawl.SoundInfo | crawler.py:32-48 | `get_sound_info` returns something only for a dict body with a truthy `success`, and for every such body it returns its `info` (`None` when absent) |
| Crawl.SuccessfulInfoReadable | crawler.py:40-41 | a sound-info body with a truthy `success` and a dict `info` yields that dict, so `main` can read the name |
| Crawl.StringInfoAborts | crawler.py:260-261 | example: a successful reply whose `info` is a string makes `main` abort, and one without `info` does not |
| Crawl.CliRun | crawler.py:243-305 | a non-integer input is rejected; the run aborts exactly when the title's info is truthy but not a dict; a count is printed only for a title with paid episodes |
| Crawl.CliAgreesWithJob | crawler.py:252-305 | unless reading the name aborts, the command-line run reports nothing to count exactly when the web job errors out, and prints the count the web job completes with |
| Jobs.IntOf | app.py:96 | `int()` keeps an integer, maps booleans to 0 and 1, converts integer text to its value, raises `ValueError` on other text and `TypeError` on null, lists and dicts |
| Jobs.IntOfDecimalText | app.py:96 | an id sent as decimal text converts to the same value as the integer itself |
| Jobs.StartCrawl | app.py:91-115 | every positive id is started and registers a fresh empty queue under it, replacing the old one; non-positive ids, non-numeric strings and malformed bodies are rejected with the matching reply and leave the registry unchanged |
| Jobs.Publish | app.py:20-23 | the job's put appends its event to its own queue and no other |
| Jobs.GetProgress | app.py:117-138 | an unregistered id is not found and changes nothing; otherwise every buffered event is returned oldest first and the queue is left empty |
| Jobs.Replay | app.py:117-135 | no interleaving of the job's puts and the client's polls changes which queue an id is registered to |
| Jobs.ReplayConserves | app.py:124-135 | across any interleaving of puts and polls, what the client received plus what is still buffered is the starting contents plus every put, in order |
| Jobs.ReplayEndsDrained | app.py:124-135 | an interleaving that ends with a poll leaves the polled queue empty |
| Jobs.ClientSeesWholeTrace | app.py:102-108 | for a freshly started job, what the client received plus what is still buffered is exactly the job's events in order; once the client polls after the last put, it has received all of them, with none lost or repeated |
| Jobs.ResubmissionOrphansEarlierJob | app.py:102-103 | resubmitting an id gives it a new empty queue, and the earlier job's later events never reach the client |
| Jobs.NegativeIdRejected | app.py:98-99 | a negative id is rejected without creating a queue |
| Jobs.UnknownIdNotFound | app.py:121-122 | example: polling any id on a freshly started server is not found and changes nothing |

## Left out

- HTTP requests, headers, `raise_for_status`, XML parsing and JSON decoding are not modelled. Each exchange is a parameter standing for the decoded outcome (`Catalog.Response`, `Danmaku.Fetch`, `Crawl.Attempt`).
- The Flask routes, CORS and the HTML/JavaScript front end are not modelled, and neither are `index` or `/api/search`, beyond the logic they call.
- Threads and concurrency are not modelled. A running job is represented by the queue it writes to, and `Jobs.Replay` takes any interleaving of its puts with the client's polls.
- Message texts, `print` logging and the `time.sleep` delays are not modelled. Events keep only the numbers their texts report.
- `get_danmaku_count` and `get_cover_image_base64` are not modelled. Of `get_sound_info`, only whether `main` can read the drama name from its result is modelled; the name itself is only printed.
- Floating-point JSON numbers are not modelled, including an `id` or `need_pay` of `1.0` and `int()` on a float `drama_id`.
- Numerals.ParseInt: only ASCII whitespace and ASCII digits are accepted. Python's `int()` also takes other Unicode whitespace and decimal digits. The 4300-digit cap is the default of current CPython releases; a process that changes the cap, or an interpreter without one, accepts a different set of numerals.
- Crawl.CrawlDrama: the outer handler that reports a crawl failure (app.py:80-84) is left out. Nothing inside the job raises once `get_drama_sounds` and `get_danmaku_ids` catch their own exceptions.
- Crawl.Classify: the per-episode handler (app.py:67-72) can only run if the crawler call raises, which the code as written prevents. It is kept reachable through the `Raised` attempt, so that the property holds for any crawler.
- Search.Listed: the episode lookup is a function of the item's JSON id. The code formats the id into the URL, so `5` and `"5"` make the same request; the model allows them different replies and is therefore more general.
- Jobs.GetProgress: requires that the registry is `Valid`. Every registry reachable from `Jobs.Initial` through `StartCrawl`, `Publish` and `GetProgress` is valid, since each of them preserves validity.
- Jobs.StartCrawl: Flask's own rejection of a body that is not JSON is folded into the server-error reply.

=== FILE: catalog.dfy ===
/**
 Episode discovery (`get_drama_sounds`): the `getdrama` reply is normalised
 into one flat list of episode records, of which only the paid ones are kept.
 */
module Catalog {
  import opened Wrappers
  import opened JsonValue
  import opened Sequences

  /** The `getdrama` reply: unreachable (transport, HTTP status or decoding failed) or a decoded body. */
  datatype Response = Unreachable | Decoded(body: Json)

  /** An episode the filter keeps: a dict whose `need_pay` compares equal to 1. */
  predicate IsPaid(ep: Json) {
    && ep.JObj?
    && match Lookup(ep.fields, "need_pay")
       case Some(v) => IsOne(v)
       case None => false
  }

  /** The paid records of `xs`, in their original order. */
  function PaidOnly(xs: seq<Json>): seq<Json> {
    Filter(xs, IsPaid)
  }

  /**
   What one value of a dict-shaped `episodes` contributes: a non-empty list
   its items, a dict itself, anything else nothing.
   */
  function GroupItems(v: Json): seq<Json> {
    match v
    case JList(items) => if |items| > 0 then items else []
    case JObj(_) => [v]
    case _ => []
  }

  /** The values of a dict-shaped `episodes`, flattened in iteration order. */
  function Flatten(groups: seq<(string, Json)>): (r: seq<Json>)
    ensures forall x :: x in r <==> exists k :: 0 <= k < |groups| && x in GroupItems(groups[k].1)
  {
    if groups == [] then []
    else
      var rest := Flatten(groups[1..]);
      assert forall k :: 0 <= k < |groups| - 1 ==> groups[1..][k] == groups[k + 1];
      GroupItems(groups[0].1) + rest
  }

  /** Flattening a concatenation of groups concatenates the flattened parts. */
  lemma {:induction false} FlattenAppend(a: seq<(string, Json)>, b: seq<(string, Json)>)
    ensures Flatten(a + b) == Flatten(a) + Flatten(b)
  {
    if a != [] {
      assert (a + b)[0] == a[0];
      assert (a + b)[1..] == a[1..] + b;
      FlattenAppend(a[1..], b);
    } else {
      assert a + b == b;
    }
  }

  /** A body the code reads episodes from: a dict with a truthy `success` and a dict `info`. */
  predicate Successful(body: Json) {
    && body.JObj?
    && Lookup(body.fields, "success").Some? && Truthy(Lookup(body.fields, "success").value)
    && Lookup(body.fields, "info").Some? && Lookup(body.fields, "info").value.JObj?
  }

  /** The `episodes` of a successful body, an empty list when it has none. */
  function EpisodesField(body: Json): Json
    requires Successful(body)
  {
    GetOr(Lookup(body.fields, "info").value, "episodes", JList([]))
  }

  /**
   The reply normalised into one flat episode list, or `None` when the reply
   cannot yield one: a failed request, a body that is not a dict, a missing or
   falsy `success`, a missing or non-dict `info`, or an `episodes` value that is
   neither a list nor a dict. A missing `episodes` counts as an empty list.
   */
  function Episodes(resp: Response): (r: Option<seq<Json>>)
    ensures r.Some? <==>
      resp.Decoded? && Successful(resp.body)
      && (EpisodesField(resp.body).JList? || EpisodesField(resp.body).JObj?)
  {
    match resp
    case Unreachable => None
    case Decoded(data) =>
      if !data.JObj? then None
      else
        match Lookup(data.fields, "success")
        case None => None
        case Some(success) =>
          if !Truthy(success) then None
          else
            match Lookup(data.fields, "info")
            case None => None
            case Some(info) =>
              if !info.JObj? then None
              else
                match GetOr(info, "episodes", JList([]))
                case JList(items) => Some(items)
                case JObj(groups) => Some(Flatten(DictItems(groups)))
                case _ => None
  }

  /** `get_drama_sounds`: the paid episodes of a title, `[]` on every failure. */
  function GetDramaSounds(resp: Response): (r: seq<Json>)
    ensures forall i :: 0 <= i < |r| ==> IsPaid(r[i])
    ensures Episodes(resp).None? ==> r == []
  {
    match Episodes(resp)
    case None => []
    case Some(xs) => PaidOnly(xs)
  }

  /**
   The paid episodes are exactly the paid records of the normalised list, each
   as often as it occurs there.
   */
  lemma GetDramaSoundsCounts(resp: Response, x: Json)
    requires Episodes(resp).Some?
    ensures multiset(GetDramaSounds(resp))[x] == if IsPaid(x) then multiset(Episodes(resp).value)[x] else 0
    ensures x in GetDramaSounds(resp) <==> x in Episodes(resp).value && IsPaid(x)
  {
    FilterCounts(Episodes(resp).value, IsPaid, x);
    FilterMembers(Episodes(resp).value, IsPaid, x);
  }

  /** The body `{"success": true, "info": {"episodes": e}}`. */
  function Reply(episodes: Json): Response {
    Decoded(JObj([("success", JBool(true)), ("info", JObj([("episodes", episodes)]))]))
  }

  lemma ReplyIsSuccessful(episodes: Json)
    ensures Successful(Reply(episodes).body) && EpisodesField(Reply(episodes).body) == episodes
  {
    var body := Reply(episodes).body;
    assert Lookup(body.fields, "success") == Some(JBool(true));
    var info := JObj([("episodes", episodes)]);
    assert Lookup(body.fields, "info") == Some(info);
    assert GetOr(info, "episodes", JList([])) == episodes;
  }

  /**
   Any successful body normalises to the items of a list-shaped `episodes`, the
   flattened iteration items of a dict-shaped one, and nothing otherwise.
   */
  lemma ReplyEpisodes(body: Json)
    ensures Successful(body) && EpisodesField(body).JList? ==>
      Episodes(Decoded(body)) == Some(EpisodesField(body).items)
    ensures Successful(body) && EpisodesField(body).JObj? ==>
      Episodes(Decoded(body)) == Some(Flatten(DictItems(EpisodesField(body).fields)))
    ensures Successful(body) && !EpisodesField(body).JList? && !EpisodesField(body).JObj? ==>
      Episodes(Decoded(body)) == None
  {
  }

  /** A list-shaped `episodes` in any successful body: exactly its paid dict entries, in list order. */
  lemma ListShapedEpisodes(body: Json, items: seq<Json>)
    ensures Successful(body) && EpisodesField(body) == JList(items) ==>
      && GetDramaSounds(Decoded(body)) == PaidOnly(items)
      && forall x :: x in GetDramaSounds(Decoded(body)) <==> x in items && IsPaid(x)
  {
    if Successful(body) && EpisodesField(body) == JList(items) {
      ReplyEpisodes(body);
      forall x
        ensures x in GetDramaSounds(Decoded(body)) <==> x in items && IsPaid(x)
      {
        FilterMembers(items, IsPaid, x);
      }
    }
  }

  /** The paid records of each value of a dict-shaped `episodes`, one value after another. */
  function PaidGroups(groups: seq<(string, Json)>): seq<Json> {
    if groups == [] then [] else PaidOnly(GroupItems(groups[0].1)) + PaidGroups(groups[1..])
  }

  lemma {:induction false} PaidFlatten(groups: seq<(string, Json)>)
    ensures PaidOnly(Flatten(groups)) == PaidGroups(groups)
  {
    if groups != [] {
      FilterAppend(GroupItems(groups[0].1), Flatten(groups[1..]), IsPaid);
      PaidFlatten(groups[1..]);
    }
  }

  /**
   A dict-shaped `episodes` in any successful body: its items are flattened in
   iteration order, then filtered; when no name repeats, that is the paid
   records of each value in turn.
   */
  lemma DictShapedEpisodes(body: Json, groups: seq<(string, Json)>)
    ensures Successful(body) && EpisodesField(body) == JObj(groups) ==>
      GetDramaSounds(Decoded(body)) == PaidGroups(DictItems(groups))
    ensures Successful(body) && EpisodesField(body) == JObj(groups) && DistinctKeys(groups) ==>
      GetDramaSounds(Decoded(body)) == PaidGroups(groups)
  {
    if Successful(body) && EpisodesField(body) == JObj(groups) {
      ReplyEpisodes(body);
      PaidFlatten(DictItems(groups));
      if DistinctKeys(groups) {
        DistinctDictItems(groups);
      }
    }
  }

  /** A name repeated in a dict-shaped `episodes` contributes its last value only. */
  lemma RepeatedGroupLastWins(a: Json, b: Json)
    ensures GetDramaSounds(Reply(JObj([("1", a), ("1", b)]))) == PaidOnly(GroupItems(b))
  {
    var groups := [("1", a), ("1", b)];
    assert Lookup(groups, "1") == Some(b);
    assert Without(groups[1..], "1") == [];
    assert DictItems(groups) == [("1", b)];
    ReplyIsSuccessful(JObj(groups));
    DictShapedEpisodes(Reply(JObj(groups)).body, groups);
    assert PaidGroups([("1", b)]) == PaidOnly(GroupItems(b)) + PaidGroups([]);
  }

  /** A repeated `success` is read from its last occurrence, as the decoded dict holds it. */
  lemma RepeatedSuccessLastWins()
    ensures var ep := JObj([("need_pay", JInt(1))]);
      GetDramaSounds(Decoded(JObj([("success", JBool(false)), ("success", JBool(true)),
                                   ("info", JObj([("episodes", JList([ep]))]))]))) == [ep]
  {
    var ep := JObj([("need_pay", JInt(1))]);
    var body := JObj([("success", JBool(false)), ("success", JBool(true)), ("info", JObj([("episodes", JList([ep]))]))]);
    assert Lookup(body.fields, "success") == Some(JBool(true));
    assert Lookup(body.fields, "info") == Some(JObj([("episodes", JList([ep]))]));
    assert Episodes(Decoded(body)) == Some([ep]);
    assert IsPaid(ep);
    assert PaidOnly([ep]) == [ep];
  }

  /** Every reply the code treats as unusable gives no episodes. */
  lemma UnusableRepliesGiveNothing(body: Json)
    ensures GetDramaSounds(Unreachable) == []
    ensures !body.JObj? ==> GetDramaSounds(Decoded(body)) == []
    ensures body.JObj? && Lookup(body.fields, "success").None? ==> GetDramaSounds(Decoded(body)) == []
    ensures body.JObj? && Lookup(body.fields, "success").Some? && !Truthy(Lookup(body.fields, "success").value)
            ==> GetDramaSounds(Decoded(body)) == []
    ensures body.JObj? && Lookup(body.fields, "info").None? ==> GetDramaSounds(Decoded(body)) == []
    ensures body.JObj? && Lookup(body.fields, "info").Some? && !Lookup(body.fields, "info").value.JObj?
            ==> GetDramaSounds(Decoded(body)) == []
    ensures Successful(body) && !EpisodesField(body).JList? && !EpisodesField(body).JObj?
            ==> GetDramaSounds(Decoded(body)) == []
  {
    ReplyEpisodes(body);
  }
}

=== FILE: crawl.dfy ===
/**
 The crawl job (`crawl_drama`) as a producer of progress events, and the
 command-line aggregation loop (`main`) that computes the same count. Both walk
 the paid episodes in order, fetch each episode's participants and fold them
 into a running set of distinct user ids.

 The per-episode call into the crawler is an oracle, `probe`, from a sound id
 to what the call produced; `Raised` stands for an exception escaping it,
 which the loop reports and survives.
 */
module Crawl {
  import opened Wrappers
  import opened Numerals
  import opened JsonValue
  import opened Catalog
  import opened Danmaku

  /** Informational messages, reduced to the numbers their texts report. */
  datatype Note =
    | Fetching(dramaId: int)       // the episode list of the title is being fetched
    | Found(episodes: nat)         // this many paid episodes were found
    | EpisodeUsers(count: nat)     // distinct users of the episode just fetched
    | RunningUnique(count: nat)    // distinct users over all episodes so far

  datatype Failure =
    | NoPaidEpisodes               // the title has no paid episode: the job ends
    | EpisodeFailed                // one episode raised: the job goes on

  /** One message put on the job's queue, tagged as the `status` field tags it. */
  datatype Event =
    | Info(note: Note)
    | Progress(current: nat, total: nat, title: Json)
    | Error(failure: Failure)
    | Complete(unique: nat)

  /** What the per-episode crawler call produced. */
  datatype Attempt = Returned(fetch: Fetch) | Raised

  /** The title reported for an episode without `name`. */
  const UntitledEpisode := JStr("未知标题")

  function SoundId(ep: Json): Json
    requires ep.JObj?
  {
    GetOr(ep, "sound_id", JNull)
  }

  function Title(ep: Json): Json
    requires ep.JObj?
  {
    GetOr(ep, "name", UntitledEpisode)
  }

  /** How one iteration of the episode loop goes, decided before any event is emitted. */
  datatype Outcome =
    | Unusable                         // not a dict: `episode.get` raises before the progress event
    | Silent(title: Json)              // no truthy sound id: only the progress event
    | Failed(title: Json)              // the crawler call raised after the progress event
    | Fetched(title: Json, ids: set<int>)  // the episode's participants were fetched

  function Classify(ep: Json, probe: Json -> Attempt): (o: Outcome)
    ensures o.Unusable? <==> !ep.JObj?
    ensures o.Silent? <==> ep.JObj? && !Truthy(SoundId(ep))
    ensures o.Failed? <==> ep.JObj? && Truthy(SoundId(ep)) && probe(SoundId(ep)).Raised?
    ensures !o.Unusable? ==> o.title == Title(ep)
    ensures o.Fetched? ==> probe(SoundId(ep)).Returned? && o.ids == DanmakuIds(probe(SoundId(ep)).fetch)
  {
    if !ep.JObj? then Unusable
    else if !Truthy(SoundId(ep)) then Silent(Title(ep))
    else
      match probe(SoundId(ep))
      case Raised => Failed(Title(ep))
      case Returned(f) => Fetched(Title(ep), DanmakuIds(f))
  }

  /** An episode whose participants are fetched: a dict with a truthy sound id for which the call returned. */
  predicate Contributor(ep: Json, probe: Json -> Attempt) {
    ep.JObj? && Truthy(SoundId(ep)) && probe(SoundId(ep)).Returned?
  }

  /** The participants an iteration adds to the running set. */
  function Contribution(o: Outcome): set<int> {
    if o.Fetched? then o.ids else {}
  }

  /** Events produced so far and the running set of distinct participants. */
  datatype Tally = Tally(events: seq<Event>, seen: set<int>)

  lemma SubsetCardinality(a: set<int>, b: set<int>)
    requires a <= b
    ensures |a| <= |b|
  {
    assert b == a + (b - a);
  }

  /**
   Iteration `idx` of `total`. A record that is not a dict fails before its
   progress event; an episode without a sound id yields only its progress
   event; otherwise the progress event is followed either by an error or by
   the episode's own count and the new running count.
   */
  function Step(idx: nat, total: nat, o: Outcome, seen: set<int>): (t: Tally)
    ensures t.seen == seen + Contribution(o)
    ensures !o.Unusable? ==> |t.events| > 0 && t.events[0] == Progress(idx, total, o.title)
    ensures o.Silent? ==> t.events == [Progress(idx, total, o.title)]
    ensures Error(EpisodeFailed) in t.events <==> o.Unusable? || o.Failed?
    ensures o.Fetched? ==> t.events[1..] == [Info(EpisodeUsers(|o.ids|)), Info(RunningUnique(|t.seen|))]
  {
    match o
    case Unusable => Tally([Error(EpisodeFailed)], seen)
    case Silent(title) => Tally([Progress(idx, total, title)], seen)
    case Failed(title) => Tally([Progress(idx, total, title), Error(EpisodeFailed)], seen)
    case Fetched(title, ids) =>
      var seen' := seen + ids;
      Tally([Progress(idx, total, title), Info(EpisodeUsers(|ids|)), Info(RunningUnique(|seen'|))], seen')
  }

  /** The loop over the iterations, numbered from `idx`, threading the running set. */
  function Loop(os: seq<Outcome>, idx: nat, total: nat, seen: set<int>): (t: Tally)
    decreases |os|
  {
    if os == [] then Tally([], seen)
    else
      var step := Step(idx, total, os[0], seen);
      var rest := Loop(os[1..], idx + 1, total, step.seen);
      Tally(step.events + rest.events, rest.seen)
  }

  /** The iteration outcome of each episode, in episode order. */
  function Outcomes(eps: seq<Json>, probe: Json -> Attempt): (os: seq<Outcome>)
    ensures |os| == |eps|
  {
    seq(|eps|, i requires 0 <= i < |eps| => Classify(eps[i], probe))
  }

  /** The loop over all iterations of a job, from the first, with an empty running set. */
  function Run(os: seq<Outcome>): Tally {
    Loop(os, 1, |os|, {})
  }

  /** The events of a job for title `dramaId` whose paid episodes' iterations go as `os`. */
  function JobTrace(dramaId: int, os: seq<Outcome>): seq<Event> {
    [Info(Fetching(dramaId))]
    + if os == [] then [Error(NoPaidEpisodes)]
      else [Info(Found(|os|))] + Run(os).events + [Complete(|Run(os).seen|)]
  }

  /**
   `crawl_drama`: every event the job puts on its queue, in order. The job
   always opens with the fetching message and always ends, either with the
   no-episodes error or with its count.
   */
  function CrawlDrama(dramaId: int, catalog: Json -> Response, probe: Json -> Attempt): (t: seq<Event>)
    ensures |t| >= 2 && t[0] == Info(Fetching(dramaId))
    ensures t[|t| - 1] == Error(NoPaidEpisodes) || t[|t| - 1].Complete?
  {
    var os := Outcomes(GetDramaSounds(catalog(JInt(dramaId))), probe);
    if os == [] then JobTrace(dramaId, os)
    else
      CompleteIsLast(dramaId, os);
      JobTrace(dramaId, os)
  }

  // ---------------------------------------------------------------------------
  // The final count is the size of a union

  /** The union of a sequence of sets. */
  function UnionAll(ss: seq<set<int>>): set<int> {
    if ss == [] then {} else ss[0] + UnionAll(ss[1..])
  }

  /** Each iteration's participant set, in order. */
  function Contributions(os: seq<Outcome>): (ss: seq<set<int>>)
    ensures |ss| == |os|
  {
    seq(|os|, i requires 0 <= i < |os| => Contribution(os[i]))
  }

  /** An id is in the union exactly when it is in one of the sets. */
  lemma {:induction false} UnionAllMembers(ss: seq<set<int>>, x: int)
    ensures x in UnionAll(ss) <==> exists i :: 0 <= i < |ss| && x in ss[i]
  {
    if ss != [] {
      UnionAllMembers(ss[1..], x);
      if x in UnionAll(ss[1..]) {
        var i :| 0 <= i < |ss| - 1 && x in ss[1..][i];
        assert x in ss[i + 1];
      }
      if exists i :: 0 <= i < |ss| && x in ss[i] {
        var i :| 0 <= i < |ss| && x in ss[i];
        if i > 0 {
          assert x in ss[1..][i - 1];
        }
      }
    }
  }

  /** The union does not depend on the order of the sets, nor on how often each occurs. */
  lemma UnionAllReorder(ss: seq<set<int>>, ts: seq<set<int>>)
    requires forall s :: s in ss <==> s in ts
    ensures UnionAll(ss) == UnionAll(ts)
  {
    forall x
      ensures x in UnionAll(ss) <==> x in UnionAll(ts)
    {
      UnionAllMembers(ss, x);
      UnionAllMembers(ts, x);
      if exists i :: 0 <= i < |ss| && x in ss[i] {
        var i :| 0 <= i < |ss| && x in ss[i];
        assert ss[i] in ts;
      }
      if exists i :: 0 <= i < |ts| && x in ts[i] {
        var i :| 0 <= i < |ts| && x in ts[i];
        assert ts[i] in ss;
      }
    }
  }

  /** The loop's running set ends as the starting set plus every iteration's participants. */
  lemma {:induction false} LoopSeen(os: seq<Outcome>, idx: nat, total: nat, seen: set<int>)
    ensures Loop(os, idx, total, seen).seen == seen + UnionAll(Contributions(os))
  {
    if os != [] {
      var step := Step(idx, total, os[0], seen);
      LoopSeen(os[1..], idx + 1, total, step.seen);
      assert Contributions(os)[1..] == Contributions(os[1..]);
    }
  }

  /** What episode `i` adds to the running set. */
  lemma ContributionOf(eps: seq<Json>, probe: Json -> Attempt, i: nat)
    requires i < |eps|
    ensures Contributions(Outcomes(eps, probe))[i]
            == if Contributor(eps[i], probe) then DanmakuIds(probe(SoundId(eps[i])).fetch) else {}
  {
    assert Outcomes(eps, probe)[i] == Classify(eps[i], probe);
  }

  /**
   A user id ends up in a job's running set exactly when some episode is a dict
   with a truthy sound id for which the crawler call returned, and
   `get_danmaku_ids` of what it returned holds that id.
   */
  lemma ParticipantsMembers(eps: seq<Json>, probe: Json -> Attempt, uid: int)
    ensures uid in Run(Outcomes(eps, probe)).seen <==>
      exists i :: 0 <= i < |eps| && Contributor(eps[i], probe) && uid in DanmakuIds(probe(SoundId(eps[i])).fetch)
  {
    var os := Outcomes(eps, probe);
    var ss := Contributions(os);
    LoopSeen(os, 1, |os|, {});
    UnionAllMembers(ss, uid);
    if uid in Run(os).seen {
      var i :| 0 <= i < |ss| && uid in ss[i];
      ContributionOf(eps, probe, i);
    }
    if exists i :: 0 <= i < |eps| && Contributor(eps[i], probe) && uid in DanmakuIds(probe(SoundId(eps[i])).fetch) {
      var i :| 0 <= i < |eps| && Contributor(eps[i], probe) && uid in DanmakuIds(probe(SoundId(eps[i])).fetch);
      ContributionOf(eps, probe, i);
    }
  }

  /** The contributions of the first `i + 1` iterations are those of the first and of the next `i`. */
  lemma ContributionsPrefix(os: seq<Outcome>, i: nat)
    requires i < |os|
    ensures UnionAll(Contributions(os[..i + 1])) == Contribution(os[0]) + UnionAll(Contributions(os[1..][..i]))
  {
    var ss := Contributions(os[..i + 1]);
    assert ss[0] == Contribution(os[0]);
    assert ss[1..] == Contributions(os[1..][..i]);
  }

  /**
   Every fetched iteration reports its own count and then the running count it
   reaches: the starting set plus every participant of it and of the iterations
   before it.
   */
  lemma {:induction false} LoopReportsCounts(os: seq<Outcome>, idx: nat, total: nat, seen: set<int>, i: nat)
    requires i < |os| && os[i].Fetched?
    ensures Info(EpisodeUsers(|os[i].ids|)) in Loop(os, idx, total, seen).events
    ensures Info(RunningUnique(|seen + UnionAll(Contributions(os[..i + 1]))|)) in Loop(os, idx, total, seen).events
  {
    var step := Step(idx, total, os[0], seen);
    var rest := Loop(os[1..], idx + 1, total, step.seen);
    assert Loop(os, idx, total, seen).events == step.events + rest.events;
    ContributionsPrefix(os, i);
    if i == 0 {
      assert os[1..][..0] == [];
      StepReportsCounts(idx, total, os[0], seen);
    } else {
      assert os[1..][i - 1] == os[i];
      LoopReportsCounts(os[1..], idx + 1, total, step.seen, i - 1);
      assert os[1..][..i - 1 + 1] == os[1..][..i];
      assert step.seen + UnionAll(Contributions(os[1..][..i])) == seen + UnionAll(Contributions(os[..i + 1]));
    }
  }

  lemma StepReportsCounts(idx: nat, total: nat, o: Outcome, seen: set<int>)
    requires o.Fetched?
    ensures Info(EpisodeUsers(|o.ids|)) in Step(idx, total, o, seen).events
    ensures Info(RunningUnique(|seen + o.ids + UnionAll([])|)) in Step(idx, total, o, seen).events
  {
    var es := Step(idx, total, o, seen).events;
    assert es[1] == Info(EpisodeUsers(|o.ids|));
    assert seen + o.ids + UnionAll([]) == seen + o.ids;
    assert es[2] == Info(RunningUnique(|seen + o.ids|));
  }

  /** The loop's running set only grows. */
  lemma LoopGrows(os: seq<Outcome>, idx: nat, total: nat, seen: set<int>)
    ensures seen <= Loop(os, idx, total, seen).seen
  {
    LoopSeen(os, idx, total, seen);
  }

  lemma OutcomesReorder(eps: seq<Json>, eps': seq<Json>, probe: Json -> Attempt)
    requires multiset(eps) == multiset(eps')
    ensures forall o :: o in Outcomes(eps, probe) ==> o in Outcomes(eps', probe)
  {
    var os := Outcomes(eps, probe);
    var os' := Outcomes(eps', probe);
    forall o | o in os
      ensures o in os'
    {
      var i :| 0 <= i < |os| && os[i] == o;
      assert eps[i] in multiset(eps');
      var j :| 0 <= j < |eps'| && eps'[j] == eps[i];
      assert os'[j] == o;
    }
  }

  lemma ContributionsReorder(os: seq<Outcome>, os': seq<Outcome>)
    requires forall o :: o in os ==> o in os'
    ensures forall s :: s in Contributions(os) ==> s in Contributions(os')
  {
    var ss := Contributions(os);
    var ts := Contributions(os');
    forall s | s in ss
      ensures s in ts
    {
      var i :| 0 <= i < |ss| && ss[i] == s;
      assert os[i] in os';
      var j :| 0 <= j < |os'| && os'[j] == os[i];
      assert ts[j] == s;
    }
  }

  /**
   Visiting the same episodes in another order gives the same participants, so
   the reported count does not depend on the order of the episode list.
   */
  lemma EpisodeOrderIrrelevant(eps: seq<Json>, eps': seq<Json>, probe: Json -> Attempt)
    requires multiset(eps) == multiset(eps')
    ensures Run(Outcomes(eps, probe)).seen == Run(Outcomes(eps', probe)).seen
  {
    var os := Outcomes(eps, probe);
    var os' := Outcomes(eps', probe);
    LoopSeen(os, 1, |eps|, {});
    LoopSeen(os', 1, |eps'|, {});
    OutcomesReorder(eps, eps', probe);
    OutcomesReorder(eps', eps, probe);
    ContributionsReorder(os, os');
    ContributionsReorder(os', os);
    UnionAllReorder(Contributions(os), Contributions(os'));
  }

  lemma ThreeSetsUnion()
    ensures |UnionAll([{1, 2, 3}, {2, 3, 4}, {5}])| == 5
  {
    var ss: seq<set<int>> := [{1, 2, 3}, {2, 3, 4}, {5}];
    assert ss[1..] == [{2, 3, 4}, {5}];
    assert ss[1..][1..] == [{5}];
    assert ss[1..][1..][1..] == [];
    assert UnionAll(ss) == {1, 2, 3, 4, 5};
  }

  // ---------------------------------------------------------------------------
  // Shape of the event trace

  /** The `current` field of each progress event, in order. */
  function Currents(es: seq<Event>): seq<nat> {
    if es == [] then []
    else (if es[0].Progress? then [es[0].current] else []) + Currents(es[1..])
  }

  /** The cumulative counts reported, in order. */
  function Uniques(es: seq<Event>): seq<nat> {
    if es == [] then []
    else (if es[0].Info? && es[0].note.RunningUnique? then [es[0].note.count] else []) + Uniques(es[1..])
  }

  lemma {:induction false} CurrentsAppend(a: seq<Event>, b: seq<Event>)
    ensures Currents(a + b) == Currents(a) + Currents(b)
  {
    if a != [] {
      assert (a + b)[0] == a[0];
      assert (a + b)[1..] == a[1..] + b;
      CurrentsAppend(a[1..], b);
    } else {
      assert a + b == b;
    }
  }

  lemma {:induction false} UniquesAppend(a: seq<Event>, b: seq<Event>)
    ensures Uniques(a + b) == Uniques(a) + Uniques(b)
  {
    if a != [] {
      assert (a + b)[0] == a[0];
      assert (a + b)[1..] == a[1..] + b;
      UniquesAppend(a[1..], b);
    } else {
      assert a + b == b;
    }
  }

  predicate Sorted(xs: seq<nat>) {
    forall i, j :: 0 <= i <= j < |xs| ==> xs[i] <= xs[j]
  }

  /** The events the episode loop itself may produce. */
  predicate LoopEvent(e: Event, total: nat) {
    match e
    case Info(note) => note.EpisodeUsers? || note.RunningUnique?
    case Progress(_, t, _) => t == total
    case Error(f) => f == EpisodeFailed
    case Complete(_) => false
  }

  /** Every cumulative count directly follows the episode's own count, which it is at least. */
  predicate Paired(es: seq<Event>) {
    forall j :: 0 <= j < |es| && es[j].Info? && es[j].note.RunningUnique? ==>
      && j > 0
      && es[j - 1].Info? && es[j - 1].note.EpisodeUsers?
      && es[j - 1].note.count <= es[j].note.count
  }

  lemma PairedAppend(a: seq<Event>, b: seq<Event>)
    requires Paired(a) && Paired(b)
    ensures Paired(a + b)
  {
    var c := a + b;
    forall j | 0 <= j < |c| && c[j].Info? && c[j].note.RunningUnique?
      ensures j > 0 && c[j - 1].Info? && c[j - 1].note.EpisodeUsers? && c[j - 1].note.count <= c[j].note.count
    {
      if j >= |a| {
        assert c[j] == b[j - |a|];
        assert c[j - 1] == b[j - 1 - |a|];
      }
    }
  }

  /** An iteration that ends in the per-episode error handler. */
  predicate Fails(o: Outcome) {
    o.Unusable? || o.Failed?
  }

  /** The loop yields only loop events, and an error exactly when some iteration fails. */
  lemma {:induction false} LoopEvents(os: seq<Outcome>, idx: nat, total: nat, seen: set<int>)
    ensures forall e :: e in Loop(os, idx, total, seen).events ==> LoopEvent(e, total)
    ensures Error(EpisodeFailed) in Loop(os, idx, total, seen).events
            <==> exists i :: 0 <= i < |os| && Fails(os[i])
  {
    if os != [] {
      var step := Step(idx, total, os[0], seen);
      LoopEvents(os[1..], idx + 1, total, step.seen);
      if exists i :: 0 <= i < |os| - 1 && Fails(os[1..][i]) {
        var i :| 0 <= i < |os| - 1 && Fails(os[1..][i]);
        assert Fails(os[i + 1]);
      }
      if exists i :: 0 <= i < |os| && Fails(os[i]) {
        var i :| 0 <= i < |os| && Fails(os[i]);
        if i > 0 {
          assert Fails(os[1..][i - 1]);
        }
      }
    }
  }

  lemma StepCurrents(idx: nat, total: nat, o: Outcome, seen: set<int>)
    requires !o.Unusable?
    ensures Currents(Step(idx, total, o, seen).events) == [idx]
  {
    var es := Step(idx, total, o, seen).events;
    if o.Silent? {
      assert es[1..] == [];
    } else if o.Failed? {
      assert es[1..][1..] == [];
      assert Currents(es[1..]) == [];
    } else {
      assert es[1..][1..][1..] == [];
      assert Currents(es[1..][1..]) == [];
      assert Currents(es[1..]) == [];
    }
  }

  /** Without unusable records the progress counters run `idx, idx + 1, …`, one per iteration. */
  lemma {:induction false} LoopCurrents(os: seq<Outcome>, idx: nat, total: nat, seen: set<int>)
    requires forall i :: 0 <= i < |os| ==> !os[i].Unusable?
    ensures Currents(Loop(os, idx, total, seen).events) == seq(|os|, i => idx + i)
  {
    if os != [] {
      var step := Step(idx, total, os[0], seen);
      var rest := Loop(os[1..], idx + 1, total, step.seen);
      LoopCurrents(os[1..], idx + 1, total, step.seen);
      CurrentsAppend(step.events, rest.events);
      StepCurrents(idx, total, os[0], seen);
      assert [idx] + seq(|os| - 1, i => idx + 1 + i) == seq(|os|, i => idx + i);
    }
  }

  lemma StepUniques(idx: nat, total: nat, o: Outcome, seen: set<int>)
    ensures var t := Step(idx, total, o, seen);
      && Paired(t.events)
      && (Uniques(t.events) == [] || Uniques(t.events) == [|t.seen|])
  {
    var t := Step(idx, total, o, seen);
    var es := t.events;
    if o.Fetched? {
      SubsetCardinality(o.ids, t.seen);
      assert es[1..][1..][1..] == [];
    } else if |es| == 1 {
      assert es[1..] == [];
    } else {
      assert es[1..][1..] == [];
    }
  }

  /**
   Over the loop the cumulative counts never decrease, lie between the sizes of
   the starting and the final set, and each follows its episode's own count.
   */
  lemma {:induction false} LoopUniques(os: seq<Outcome>, idx: nat, total: nat, seen: set<int>)
    ensures var t := Loop(os, idx, total, seen);
      && Sorted(Uniques(t.events))
      && (forall k :: 0 <= k < |Uniques(t.events)| ==> |seen| <= Uniques(t.events)[k] <= |t.seen|)
      && Paired(t.events)
  {
    if os != [] {
      var step := Step(idx, total, os[0], seen);
      var rest := Loop(os[1..], idx + 1, total, step.seen);
      assert Loop(os, idx, total, seen) == Tally(step.events + rest.events, rest.seen);
      LoopUniques(os[1..], idx + 1, total, step.seen);
      StepUniques(idx, total, os[0], seen);
      UniquesAppend(step.events, rest.events);
      PairedAppend(step.events, rest.events);
      SubsetCardinality(seen, step.seen);
      LoopGrows(os[1..], idx + 1, total, step.seen);
      SubsetCardinality(step.seen, rest.seen);
      BoundedSortedAppend(Uniques(step.events), Uniques(rest.events), |seen|, |step.seen|, |rest.seen|);
    }
  }

  /** Two sorted runs, the first bounded by `lo` and `mid`, the second by `mid` and `hi`, join into one. */
  lemma BoundedSortedAppend(a: seq<nat>, b: seq<nat>, lo: nat, mid: nat, hi: nat)
    requires lo <= mid <= hi
    requires Sorted(a) && Sorted(b)
    requires forall k :: 0 <= k < |a| ==> lo <= a[k] <= mid
    requires forall k :: 0 <= k < |b| ==> mid <= b[k] <= hi
    ensures Sorted(a + b)
    ensures forall k :: 0 <= k < |a + b| ==> lo <= (a + b)[k] <= hi
  {
    var c := a + b;
    forall k | 0 <= k < |c|
      ensures lo <= c[k] <= hi
    {
      if k < |a| {
        assert c[k] == a[k];
      } else {
        assert c[k] == b[k - |a|];
      }
    }
    forall i, j | 0 <= i <= j < |c|
      ensures c[i] <= c[j]
    {
      if j < |a| {
        assert c[i] == a[i] && c[j] == a[j];
      } else if i >= |a| {
        assert c[i] == b[i - |a|] && c[j] == b[j - |a|];
      } else {
        assert c[i] == a[i] && c[j] == b[j - |a|];
      }
    }
  }

  // ---------------------------------------------------------------------------
  // Properties of the whole trace

  /** No paid episode: the trace is the opening message and one error, nothing else. */
  lemma EmptyCatalogTrace(dramaId: int, catalog: Json -> Response, probe: Json -> Attempt)
    ensures GetDramaSounds(catalog(JInt(dramaId))) == []
        <==> CrawlDrama(dramaId, catalog, probe) == [Info(Fetching(dramaId)), Error(NoPaidEpisodes)]
  {
  }

  /**
   With `n` paid episodes the trace opens with the fetching and found messages,
   ends with the one `Complete` event, whose count is the size of the union of
   the per-episode participant sets, and never reports the no-episode error.
   */
  lemma CompleteIsLast(dramaId: int, os: seq<Outcome>)
    requires os != []
    ensures var t := JobTrace(dramaId, os);
      && |t| >= 3
      && t[0] == Info(Fetching(dramaId))
      && t[1] == Info(Found(|os|))
      && t[|t| - 1] == Complete(|UnionAll(Contributions(os))|)
      && (forall j :: 0 <= j < |t| - 1 ==> !t[j].Complete?)
      && Error(NoPaidEpisodes) !in t
  {
    var run := Run(os);
    var t := JobTrace(dramaId, os);
    LoopSeen(os, 1, |os|, {});
    LoopEvents(os, 1, |os|, {});
    assert t == [Info(Fetching(dramaId)), Info(Found(|os|))] + run.events + [Complete(|run.seen|)];
    forall j | 0 <= j < |t|
      ensures t[j] != Error(NoPaidEpisodes)
      ensures j < |t| - 1 ==> !t[j].Complete?
    {
      if 2 <= j < |t| - 1 {
        assert t[j] == run.events[j - 2];
        assert LoopEvent(t[j], |os|);
      }
    }
  }

  /** An example: users shared by several episodes are counted once in the final event. */
  lemma DuplicatesCountOnce(dramaId: int)
    ensures var os := [Fetched(UntitledEpisode, {1, 2, 3}), Fetched(UntitledEpisode, {2, 3, 4}),
                       Fetched(UntitledEpisode, {5})];
            var t := JobTrace(dramaId, os);
      t[|t| - 1] == Complete(5)
  {
    var os := [Fetched(UntitledEpisode, {1, 2, 3}), Fetched(UntitledEpisode, {2, 3, 4}),
               Fetched(UntitledEpisode, {5})];
    CompleteIsLast(dramaId, os);
    assert Contributions(os) == [{1, 2, 3}, {2, 3, 4}, {5}];
    ThreeSetsUnion();
  }

  /**
   The progress events count the episodes: their `current` fields are exactly
   1, 2, …, n in order, and every one carries `total` n.
   */
  lemma ProgressCountsEpisodes(dramaId: int, os: seq<Outcome>)
    requires os != []
    requires forall i :: 0 <= i < |os| ==> !os[i].Unusable?
    ensures var t := JobTrace(dramaId, os);
      && Currents(t) == seq(|os|, i => i + 1)
      && forall j :: 0 <= j < |t| && t[j].Progress? ==> t[j].total == |os|
  {
    var n := |os|;
    var run := Run(os);
    var head := [Info(Fetching(dramaId)), Info(Found(n))];
    var tail := [Complete(|run.seen|)];
    var t := JobTrace(dramaId, os);
    assert t == head + run.events + tail;
    LoopCurrents(os, 1, n, {});
    CurrentsAppend(head, run.events);
    CurrentsAppend(head + run.events, tail);
    assert head[1..][1..] == [];
    assert Currents(head) == [];
    assert tail[1..] == [];
    assert Currents(tail) == [];
    assert seq(n, i => 1 + i) == seq(n, i => i + 1);
    LoopEvents(os, 1, n, {});
    forall j | 0 <= j < |t| && t[j].Progress?
      ensures t[j].total == n
    {
      assert 2 <= j < |t| - 1;
      assert t[j] == run.events[j - 2];
      assert LoopEvent(t[j], n);
    }
  }

  lemma FramedUniques(head: seq<Event>, mid: seq<Event>, tail: seq<Event>)
    requires Uniques(head) == [] && Uniques(tail) == []
    requires Paired(head) && Paired(mid) && Paired(tail)
    ensures Uniques(head + mid + tail) == Uniques(mid)
    ensures Paired(head + mid + tail)
  {
    UniquesAppend(head, mid);
    UniquesAppend(head + mid, tail);
    PairedAppend(head, mid);
    PairedAppend(head + mid, tail);
  }

  /**
   The cumulative counts never decrease, each is at least the count of the
   episode it follows, and none exceeds the final count.
   */
  lemma RunningCountsMonotone(dramaId: int, os: seq<Outcome>)
    requires os != []
    ensures var t := JobTrace(dramaId, os);
      && Sorted(Uniques(t))
      && Paired(t)
      && t[|t| - 1].Complete?
      && (forall k :: 0 <= k < |Uniques(t)| ==> Uniques(t)[k] <= t[|t| - 1].unique)
      && forall i :: 0 <= i < |os| && os[i].Fetched? ==>
        && Info(EpisodeUsers(|os[i].ids|)) in t
        && Info(RunningUnique(|UnionAll(Contributions(os[..i + 1]))|)) in t
  {
    var run := Run(os);
    var head := [Info(Fetching(dramaId)), Info(Found(|os|))];
    var tail := [Complete(|run.seen|)];
    var t := JobTrace(dramaId, os);
    assert t == head + run.events + tail;
    LoopUniques(os, 1, |os|, {});
    assert head[1..][1..] == [];
    assert Uniques(head[1..]) == [];
    assert tail[1..] == [];
    FramedUniques(head, run.events, tail);
    forall i | 0 <= i < |os| && os[i].Fetched?
      ensures Info(EpisodeUsers(|os[i].ids|)) in t
      ensures Info(RunningUnique(|UnionAll(Contributions(os[..i + 1]))|)) in t
    {
      LoopReportsCounts(os, 1, |os|, {}, i);
      assert {} + UnionAll(Contributions(os[..i + 1])) == UnionAll(Contributions(os[..i + 1]));
    }
  }

  /**
   An episode failure is reported exactly when some iteration fails, and it
   never ends the job: the `Complete` event still comes last.
   */
  lemma EpisodeFailureNotTerminal(dramaId: int, os: seq<Outcome>)
    requires os != []
    ensures var t := JobTrace(dramaId, os);
      && (Error(EpisodeFailed) in t <==> exists i :: 0 <= i < |os| && Fails(os[i]))
      && forall j :: 0 <= j < |t| && t[j] == Error(EpisodeFailed) ==> j < |t| - 1 && t[|t| - 1].Complete?
  {
    var run := Run(os);
    var t := JobTrace(dramaId, os);
    assert t == [Info(Fetching(dramaId)), Info(Found(|os|))] + run.events + [Complete(|run.seen|)];
    LoopEvents(os, 1, |os|, {});
  }

  /** A paid episode is a dict, so none of its iterations fails before its progress event. */
  lemma PaidEpisodesUsable(eps: seq<Json>, probe: Json -> Attempt)
    requires forall i :: 0 <= i < |eps| ==> IsPaid(eps[i])
    ensures forall i :: 0 <= i < |eps| ==> !Outcomes(eps, probe)[i].Unusable?
  {
  }

  /**
   The job for a title with paid episodes: its counters run 1 to the number of
   paid episodes, and it completes with the number of distinct participants
   over all of them.
   */
  lemma CrawlDramaTrace(dramaId: int, catalog: Json -> Response, probe: Json -> Attempt)
    ensures var eps := GetDramaSounds(catalog(JInt(dramaId)));
            var t := CrawlDrama(dramaId, catalog, probe);
      eps != [] ==>
        && t[|t| - 1] == Complete(|UnionAll(Contributions(Outcomes(eps, probe)))|)
        && t[|t| - 1] == Complete(|Run(Outcomes(eps, probe)).seen|)
        && Currents(t) == seq(|eps|, i => i + 1)
  {
    var eps := GetDramaSounds(catalog(JInt(dramaId)));
    if eps != [] {
      var os := Outcomes(eps, probe);
      PaidEpisodesUsable(eps, probe);
      CompleteIsLast(dramaId, os);
      ProgressCountsEpisodes(dramaId, os);
      LoopSeen(os, 1, |os|, {});
    }
  }

  // ---------------------------------------------------------------------------
  // The command-line driver

  /** What `main` ends with. */
  datatype Report =
    | InvalidInput          // the typed id is not an integer
    | Aborted               // reading the title's name raised; the top-level handler reports it
    | NothingToCount        // the title has no paid episode
    | Counted(unique: nat)  // the final distinct-user count it prints

  /**
   What `get_sound_info` returns for its reply: the `info` of a dict body whose
   `success` is truthy, else `None` (every failure is caught there).
   */
  function SoundInfo(resp: Response): (info: Option<Json>)
    ensures info.Some? ==>
      && resp.Decoded? && resp.body.JObj?
      && Lookup(resp.body.fields, "success").Some? && Truthy(Lookup(resp.body.fields, "success").value)
      && Lookup(resp.body.fields, "info") == info
    ensures (resp.Decoded? && resp.body.JObj? && Lookup(resp.body.fields, "success").Some?
             && Truthy(Lookup(resp.body.fields, "success").value))
            ==> info == Lookup(resp.body.fields, "info")
  {
    match resp
    case Unreachable => None
    case Decoded(data) =>
      if !data.JObj? then None
      else
        match Lookup(data.fields, "success")
        case None => None
        case Some(success) => if Truthy(success) then Lookup(data.fields, "info") else None
  }

  /**
   `drama_info.get("name", …) if drama_info else …` raises: the info is truthy
   but not a dict, so it has no `get`.
   */
  predicate NameLookupRaises(info: Option<Json>) {
    info.Some? && Truthy(info.value) && !info.value.JObj?
  }

  /**
   A sound-info reply the catalog would also accept never makes `main` abort:
   its `info` is a dict, whose name can be read.
   */
  lemma SuccessfulInfoReadable(body: Json)
    ensures Successful(body) ==> SoundInfo(Decoded(body)) == Some(Lookup(body.fields, "info").value)
    ensures Successful(body) ==> !NameLookupRaises(SoundInfo(Decoded(body)))
  {
  }

  /** A successful reply whose `info` is a string makes `main` abort; one without `info` does not. */
  lemma StringInfoAborts()
    ensures NameLookupRaises(SoundInfo(Decoded(JObj([("success", JBool(true)), ("info", JStr("x"))]))))
    ensures !NameLookupRaises(SoundInfo(Decoded(JObj([("success", JBool(true))]))))
  {
    var withInfo := [("success", JBool(true)), ("info", JStr("x"))];
    assert Lookup(withInfo, "success") == Some(JBool(true));
    assert Lookup(withInfo, "info") == Some(JStr("x"));
  }

  /**
   `main`: read an id, look up the title's name, list the paid episodes, fold
   their participants. `info` answers the sound-info request for an id.
   */
  function CliRun(input: string, info: Json -> Response, catalog: Json -> Response, probe: Json -> Attempt): (r: Report)
    ensures r == InvalidInput <==> ParseInt(input).None?
    ensures r == Aborted <==> ParseInt(input).Some? && NameLookupRaises(SoundInfo(info(JInt(ParseInt(input).value))))
    ensures r.Counted? ==> GetDramaSounds(catalog(JInt(ParseInt(input).value))) != []
  {
    match ParseInt(input)
    case None => InvalidInput
    case Some(dramaId) =>
      if NameLookupRaises(SoundInfo(info(JInt(dramaId)))) then Aborted
      else
        var eps := GetDramaSounds(catalog(JInt(dramaId)));
        if eps == [] then NothingToCount
        else Counted(|Run(Outcomes(eps, probe)).seen|)
  }

  /**
   Unless reading the title's name raises, the command-line count is the count
   the web job completes with for the same title.
   */
  lemma CliAgreesWithJob(input: string, info: Json -> Response, catalog: Json -> Response, probe: Json -> Attempt)
    requires ParseInt(input).Some?
    ensures var dramaId := ParseInt(input).value;
            var t := CrawlDrama(dramaId, catalog, probe);
            var r := CliRun(input, info, catalog, probe);
      !NameLookupRaises(SoundInfo(info(JInt(dramaId)))) ==>
        && (r == NothingToCount <==> t[|t| - 1] == Error(NoPaidEpisodes))
        && forall c :: r == Counted(c) <==> t[|t| - 1] == Complete(c)
  {
  }
}

=== FILE: danmaku.dfy ===
/**
 Participant extraction from one episode's danmaku (bullet-comment) log. The
 log is an XML document of `<d>` elements whose `p` attribute is a
 comma-separated list: time, mode, font size, colour, send time, pool,
 user id, comment id. The XML parser is outside the model: an episode's log
 arrives as the `p` attribute of each `<d>` in document order, or as the
 failure that stopped it.
 */
module Danmaku {
  import opened Wrappers
  import opened Numerals
  import Fields

  /** The outcome of requesting and parsing one episode's log. */
  datatype Fetch =
    | RequestFailed                          // transport error or HTTP error status
    | MalformedXml                           // the body is not well-formed XML
    | Parsed(entries: seq<Option<string>>)   // `p` of each `<d>`, `None` where it is absent

  /** Index of the user-id field in a `p` attribute. */
  const UserIdField := 6

  /** The user id an attribute string carries: field 6 of at least seven, when it parses. */
  function UserId(p: string): (r: Option<int>)
    ensures r.Some? ==> Fields.Occurrences(p, ',') >= UserIdField
  {
    var attrs := Fields.Split(p, ',');
    if |attrs| > UserIdField then ParseInt(attrs[UserIdField]) else None
  }

  /** The entry has a `p` attribute from which `parse` reads `uid`. */
  predicate Yields(entry: Option<string>, parse: string -> Option<int>, uid: int) {
    entry.Some? && parse(entry.value) == Some(uid)
  }

  /** The entry has a `p` attribute whose user id is `uid`. */
  predicate Contributes(entry: Option<string>, uid: int) {
    Yields(entry, UserId, uid)
  }

  /**
   The loop over the `<d>` entries, with the attribute parser as a parameter. An
   attribute the parser rejects is skipped on its own; an entry without `p`
   raises an error the per-entry handler does not catch, which `None` stands for.
   */
  function Scan(entries: seq<Option<string>>, parse: string -> Option<int>): (r: Option<set<int>>)
    ensures r.None? <==> exists i :: 0 <= i < |entries| && entries[i].None?
    ensures r.Some? ==>
      forall uid :: uid in r.value <==> exists i :: 0 <= i < |entries| && Yields(entries[i], parse, uid)
  {
    if entries == [] then Some({})
    else
      var prefix := entries[..|entries| - 1];
      var last := entries[|entries| - 1];
      assert forall i :: 0 <= i < |prefix| ==> prefix[i] == entries[i];
      match Scan(prefix, parse)
      case None => None
      case Some(ids) =>
        if last.None? then None
        else
          match parse(last.value)
          case None => Some(ids)
          case Some(uid) => Some(ids + {uid})
  }

  /**
   `get_danmaku_ids`: the set of user ids in an episode's log. Every failure,
   including an entry without `p`, gives the empty set rather than an error.
   */
  function DanmakuIds(f: Fetch): (ids: set<int>)
    ensures !f.Parsed? ==> ids == {}
    ensures f.Parsed? && (exists i :: 0 <= i < |f.entries| && f.entries[i].None?) ==> ids == {}
    ensures f.Parsed? && (forall i :: 0 <= i < |f.entries| ==> f.entries[i].Some?) ==>
      forall uid :: uid in ids <==> exists i :: 0 <= i < |f.entries| && Contributes(f.entries[i], uid)
  {
    match f
    case Parsed(entries) =>
      (match Scan(entries, UserId)
       case Some(ids) => ids
       case None => {})
    case _ => {}
  }

  lemma ScanSkips(pre: seq<Option<string>>, e: Option<string>, post: seq<Option<string>>,
                  parse: string -> Option<int>)
    requires e.Some? && parse(e.value).None?
    ensures Scan(pre + [e] + post, parse) == Scan(pre + post, parse)
  {
    var full := pre + [e] + post;
    var short := pre + post;
    assert forall i :: 0 <= i < |pre| ==> full[i] == short[i];
    assert forall i :: |pre| <= i < |short| ==> full[i + 1] == short[i];
    assert full[|pre|] == e;
    if exists i :: 0 <= i < |short| && short[i].None? {
      var i :| 0 <= i < |short| && short[i].None?;
      if i < |pre| {
        assert full[i].None?;
      } else {
        assert full[i + 1].None?;
      }
    } else {
      forall i | 0 <= i < |full|
        ensures full[i].Some?
      {
        if i > |pre| {
          assert full[i] == short[i - 1];
        }
      }
      assert Scan(full, parse).Some? && Scan(short, parse).Some?;
      forall uid
        ensures uid in Scan(full, parse).value <==> uid in Scan(short, parse).value
      {
        if exists i :: 0 <= i < |full| && Yields(full[i], parse, uid) {
          var i :| 0 <= i < |full| && Yields(full[i], parse, uid);
          if i < |pre| {
            assert Yields(short[i], parse, uid);
          } else {
            assert i != |pre|;
            assert Yields(short[i - 1], parse, uid);
          }
        }
        if exists i :: 0 <= i < |short| && Yields(short[i], parse, uid) {
          var i :| 0 <= i < |short| && Yields(short[i], parse, uid);
          if i < |pre| {
            assert Yields(full[i], parse, uid);
          } else {
            assert Yields(full[i + 1], parse, uid);
          }
        }
      }
      assert Scan(full, parse).value == Scan(short, parse).value;
    }
  }

  /**
   An entry whose attribute is too short or whose user id does not parse can be
   removed without changing the result: it is skipped, and every other entry
   still contributes.
   */
  lemma SkippedEntryChangesNothing(pre: seq<Option<string>>, p: string, post: seq<Option<string>>)
    requires UserId(p).None?
    ensures DanmakuIds(Parsed(pre + [Some(p)] + post)) == DanmakuIds(Parsed(pre + post))
  {
    ScanSkips(pre, Some(p), post, UserId);
  }

  /** The fields of a well-formed attribute with user 42 in field 6. */
  const SampleFields: seq<string> := ["12.5", "1", "25", "16777215", "1600000000", "0", "42", "9001"]

  /**
   The attribute written from comma-free fields carries the user id field 6
   parses to when there are at least seven fields, and none otherwise.
   */
  lemma UserIdOfFields(fields: seq<string>)
    requires |fields| > 0
    requires forall k :: 0 <= k < |fields| ==> ',' !in fields[k]
    ensures UserId(Fields.Join(fields, ',')) == if |fields| > UserIdField then ParseInt(fields[UserIdField]) else None
  {
    Fields.SplitJoin(fields, ',');
  }

  /** An example: the sample attribute names user 42. */
  lemma SampleAttrUser()
    ensures UserId(Fields.Join(SampleFields, ',')) == Some(42)
  {
    UserIdOfFields(SampleFields);
    assert SampleFields[UserIdField] == "42";
    ParseFortyTwo();
  }

  lemma ParseFortyTwo()
    ensures ParseInt("42") == Some(42)
  {
    assert ShowNat(4) == "4";
    assert ShowNat(42) == "42";
    assert ShowInt(42) == "42";
    ParseShowRoundTrip(42);
  }

  /** A short attribute is skipped and the well-formed one still counts. */
  lemma ShortEntrySkippedExample()
    ensures DanmakuIds(Parsed([Some("1,2,3"), Some(Fields.Join(SampleFields, ','))])) == {42}
  {
    var full := Fields.Join(SampleFields, ',');
    ShortAttrNoUser();
    SkippedEntryChangesNothing([], "1,2,3", [Some(full)]);
    assert [] + [Some("1,2,3")] + [Some(full)] == [Some("1,2,3"), Some(full)];
    assert [] + [Some(full)] == [Some(full)];
    SingleFullEntry();
  }

  /** Three fields are too few to carry a user id. */
  lemma ShortAttrNoUser()
    ensures UserId("1,2,3") == None
  {
    var short := ["1", "2", "3"];
    Fields.SplitJoin(short, ',');
    assert Fields.Join(short, ',') == "1,2,3";
  }

  /** A log of one well-formed entry yields its user. */
  lemma SingleFullEntry()
    ensures DanmakuIds(Parsed([Some(Fields.Join(SampleFields, ','))])) == {42}
  {
    var full := Fields.Join(SampleFields, ',');
    SampleAttrUser();
    assert [Some(full)][..0] == [];
    assert Scan([Some(full)], UserId) == Some({} + {42});
  }

  /** One `<d>` without `p` empties the result, however many good entries precede it. */
  lemma MissingAttrExample()
    ensures DanmakuIds(Parsed([Some(Fields.Join(SampleFields, ',')), None])) == {}
  {
    var entries: seq<Option<string>> := [Some(Fields.Join(SampleFields, ',')), None];
    assert entries[1].None?;
  }
}

=== FILE: fields.dfy ===
/**
 Python's `str.split(sep)` with an explicit one-character separator: every
 occurrence of the separator ends a field, so `n` separators give `n + 1`
 fields, empty fields included, and the empty string gives one empty field.
 */
module Fields {

  /** How many times `c` occurs in `s`. */
  function Occurrences(s: string, c: char): nat {
    if s == [] then 0 else (if s[0] == c then 1 else 0) + Occurrences(s[1..], c)
  }

  function Split(s: string, sep: char): (fields: seq<string>)
    ensures |fields| == Occurrences(s, sep) + 1
    ensures forall k :: 0 <= k < |fields| ==> sep !in fields[k]
  {
    if s == [] then [[]]
    else
      var rest := Split(s[1..], sep);
      if s[0] == sep then [[]] + rest
      else [[s[0]] + rest[0]] + rest[1..]
  }

  /** `sep.join(fields)`. */
  function Join(fields: seq<string>, sep: char): string
    requires |fields| > 0
  {
    if |fields| == 1 then fields[0] else fields[0] + [sep] + Join(fields[1..], sep)
  }

  /** Joining the fields back with the separator restores the text. */
  lemma {:induction false} JoinSplit(s: string, sep: char)
    ensures Join(Split(s, sep), sep) == s
  {
    if s != [] {
      var rest := Split(s[1..], sep);
      JoinSplit(s[1..], sep);
      if s[0] == sep {
        assert Split(s, sep)[1..] == rest;
      } else {
        var fields := Split(s, sep);
        assert fields[1..] == rest[1..];
        if |rest| > 1 {
          assert Join(rest, sep) == rest[0] + [sep] + Join(rest[1..], sep);
        }
      }
    }
  }

  lemma {:induction false} SplitNoSeparator(a: string, b: string, sep: char)
    requires sep !in a
    ensures Split(a + b, sep) == [a + Split(b, sep)[0]] + Split(b, sep)[1..]
  {
    if a != [] {
      assert (a + b)[0] == a[0];
      assert (a + b)[1..] == a[1..] + b;
      SplitNoSeparator(a[1..], b, sep);
      assert [a[0]] + (a[1..] + Split(b, sep)[0]) == a + Split(b, sep)[0];
    } else {
      var r := Split(b, sep);
      assert a + b == b && a + r[0] == r[0];
      assert r == [r[0]] + r[1..];
    }
  }

  /** Splitting fields joined with a separator they do not contain gives the fields back. */
  lemma {:induction false} SplitJoin(fields: seq<string>, sep: char)
    requires |fields| > 0
    requires forall k :: 0 <= k < |fields| ==> sep !in fields[k]
    ensures Split(Join(fields, sep), sep) == fields
  {
    if |fields| == 1 {
      SplitNoSeparator(fields[0], [], sep);
      assert fields[0] + [] == fields[0];
    } else {
      var tail := Join(fields[1..], sep);
      SplitJoin(fields[1..], sep);
      assert ([sep] + tail)[1..] == tail;
      assert Split([sep] + tail, sep) == [[]] + fields[1..];
      assert fields[0] + [sep] + tail == fields[0] + ([sep] + tail);
      SplitNoSeparator(fields[0], [sep] + tail, sep);
      assert fields[0] + [] == fields[0];
    }
  }
}

=== FILE: jobs.dfy ===
/**
 The job registry behind the web interface: `start_crawl` validates a title id
 and registers a fresh progress queue under it, and `get_progress` drains the
 queue registered for an id. A queue is identified by the order of its
 creation, so a resubmission that registers a new queue under the same id
 leaves the old one reachable only by the job that still writes to it.
 */
module Jobs {
  import opened Wrappers
  import opened Numerals
  import opened JsonValue
  import opened Crawl

  /** The queue registered for each title id, and the contents of every queue ever created. */
  datatype Registry = Registry(channels: map<int, nat>, queues: seq<seq<Event>>)

  /** Every registered id names a queue that exists. */
  predicate Valid(reg: Registry) {
    forall id :: id in reg.channels ==> reg.channels[id] < |reg.queues|
  }

  /** The registry when the server starts. */
  const Initial := Registry(map[], [])

  /** Python's `int(v)` on a decoded JSON value. */
  datatype Conversion = Converted(value: int) | ValueFailure | TypeFailure

  function IntOf(v: Json): (c: Conversion)
    ensures v.JInt? ==> c == Converted(v.i)
    ensures v.JBool? ==> c == Converted(if v.b then 1 else 0)
    ensures v.JStr? ==> (c.Converted? <==> ParseInt(v.s).Some?)
    ensures v.JStr? && ParseInt(v.s).Some? ==> c == Converted(ParseInt(v.s).value)
    ensures v.JStr? && ParseInt(v.s).None? ==> c == ValueFailure
    ensures v.JNull? || v.JList? || v.JObj? ==> c.TypeFailure?
  {
    match v
    case JInt(i) => Converted(i)
    case JBool(b) => Converted(if b then 1 else 0)
    case JStr(s) =>
      (match ParseInt(s)
       case Some(i) => Converted(i)
       case None => ValueFailure)
    case _ => TypeFailure
  }

  /** An id sent as decimal text converts to the same value as the integer itself. */
  lemma IntOfDecimalText(n: int)
    requires |ShowNat(if n < 0 then -n else n)| <= MaxStrDigits
    ensures IntOf(JStr(ShowInt(n))) == IntOf(JInt(n)) == Converted(n)
  {
    ParseShowRoundTrip(n);
  }

  /** The id a request body asks for: `int(data.get('drama_id', 0))`, or `None` when the body is not a dict. */
  function RequestedId(body: Option<Json>): Option<Conversion> {
    if body.Some? && body.value.JObj? then Some(IntOf(GetOr(body.value, "drama_id", JInt(0)))) else None
  }

  /** What `start_crawl` answers. */
  datatype Reply =
    | Started(dramaId: int, queue: nat)  // the job runs, writing to this queue
    | InvalidId                          // 400: the id is not positive
    | NotNumeric                         // 400: the id is a string that is not an integer
    | ServerError                        // 500: no dict body, or an id of the wrong type

  datatype Submission = Submission(reg: Registry, reply: Reply)

  /**
   `start_crawl`. A positive id gets a fresh, empty queue registered under it,
   replacing whatever queue the id had; every rejection leaves the registry as it was.
   */
  function StartCrawl(reg: Registry, body: Option<Json>): (s: Submission)
    ensures Valid(reg) ==> Valid(s.reg)
    ensures !s.reply.Started? ==> s.reg == reg
    ensures s.reply.Started? ==>
      && s.reply.dramaId > 0
      && RequestedId(body) == Some(Converted(s.reply.dramaId))
      && s.reply.queue == |reg.queues|
      && s.reg.channels == reg.channels[s.reply.dramaId := s.reply.queue]
      && s.reg.queues == reg.queues + [[]]
    ensures forall i :: RequestedId(body) == Some(Converted(i)) && i > 0 ==> s.reply == Started(i, |reg.queues|)
    ensures forall i :: RequestedId(body) == Some(Converted(i)) && i <= 0 ==> s.reply == InvalidId
    ensures RequestedId(body) == Some(ValueFailure) ==> s.reply == NotNumeric
    ensures RequestedId(body) == None || RequestedId(body) == Some(TypeFailure) ==> s.reply == ServerError
  {
    match RequestedId(body)
    case None => Submission(reg, ServerError)
    case Some(ValueFailure) => Submission(reg, NotNumeric)
    case Some(TypeFailure) => Submission(reg, ServerError)
    case Some(Converted(dramaId)) =>
      if dramaId <= 0 then Submission(reg, InvalidId)
      else
        var q := |reg.queues|;
        Submission(Registry(reg.channels[dramaId := q], reg.queues + [[]]), Started(dramaId, q))
  }

  /** The job writing to queue `q` puts one event on it. */
  function Publish(reg: Registry, q: nat, e: Event): (r: Registry)
    requires q < |reg.queues|
    ensures r.channels == reg.channels && |r.queues| == |reg.queues|
    ensures r.queues[q] == reg.queues[q] + [e]
    ensures forall k :: 0 <= k < |reg.queues| && k != q ==> r.queues[k] == reg.queues[k]
  {
    Registry(reg.channels, reg.queues[q := reg.queues[q] + [e]])
  }

  /** What `get_progress` answers. */
  datatype PollReply = NotFound | Messages(events: seq<Event>)

  datatype Polled = Polled(reg: Registry, reply: PollReply)

  /**
   `get_progress`: an unknown id is not found; otherwise every buffered event
   of its queue is returned, oldest first, and the queue is left empty.
   */
  function GetProgress(reg: Registry, dramaId: int): (p: Polled)
    requires Valid(reg)
    ensures Valid(p.reg)
    ensures dramaId !in reg.channels ==> p.reply == NotFound && p.reg == reg
    ensures dramaId in reg.channels ==>
      var q := reg.channels[dramaId];
      && p.reply == Messages(reg.queues[q])
      && p.reg.channels == reg.channels
      && p.reg.queues == reg.queues[q := []]
  {
    if dramaId !in reg.channels then Polled(reg, NotFound)
    else
      var q := reg.channels[dramaId];
      Polled(Registry(reg.channels, reg.queues[q := []]), Messages(reg.queues[q]))
  }

  // ---------------------------------------------------------------------------
  // A producer and a polling consumer

  /** One step of an interleaving: the job puts an event, or the client polls. */
  datatype Op = Put(e: Event) | Poll

  /** The events the job puts, in order. */
  function Puts(ops: seq<Op>): seq<Event> {
    if ops == [] then [] else (if ops[0].Put? then [ops[0].e] else []) + Puts(ops[1..])
  }

  /** The registry after an interleaving, and everything the client's polls returned, in order. */
  datatype Session = Session(reg: Registry, received: seq<Event>)

  /**
   Runs an interleaving in which the job writes to queue `q` and the client
   polls `dramaId`.
   */
  function Replay(reg: Registry, dramaId: int, q: nat, ops: seq<Op>): (s: Session)
    requires Valid(reg) && dramaId in reg.channels && q < |reg.queues|
    ensures Valid(s.reg)
    ensures s.reg.channels == reg.channels && |s.reg.queues| == |reg.queues|
    decreases |ops|
  {
    if ops == [] then Session(reg, [])
    else
      match ops[0]
      case Put(e) =>
        Replay(Publish(reg, q, e), dramaId, q, ops[1..])
      case Poll =>
        var p := GetProgress(reg, dramaId);
        var rest := Replay(p.reg, dramaId, q, ops[1..]);
        Session(rest.reg, p.reply.events + rest.received)
  }

  /**
   Polling loses and duplicates nothing: what the client has received, followed
   by what is still buffered, is what was buffered at the start followed by
   every event the job put, in order, when the job writes to the polled queue,
   and just what was buffered at the start when it writes elsewhere.
   */
  lemma {:induction false} ReplayConserves(reg: Registry, dramaId: int, q: nat, ops: seq<Op>)
    requires Valid(reg) && dramaId in reg.channels && q < |reg.queues|
    ensures var s := Replay(reg, dramaId, q, ops);
            var c := reg.channels[dramaId];
      s.received + s.reg.queues[c] == reg.queues[c] + (if c == q then Puts(ops) else [])
    decreases |ops|
  {
    var c := reg.channels[dramaId];
    if ops != [] {
      match ops[0]
      case Put(e) =>
        var reg' := Publish(reg, q, e);
        ReplayConserves(reg', dramaId, q, ops[1..]);
        if c == q {
          assert reg'.queues[c] == reg.queues[c] + [e];
        } else {
          assert reg'.queues[c] == reg.queues[c];
        }
      case Poll =>
        var p := GetProgress(reg, dramaId);
        ReplayConserves(p.reg, dramaId, q, ops[1..]);
        assert p.reg.queues[c] == [];
    }
  }

  /** An interleaving whose last step is a poll leaves the polled queue empty. */
  lemma {:induction false} ReplayEndsDrained(reg: Registry, dramaId: int, q: nat, ops: seq<Op>)
    requires Valid(reg) && dramaId in reg.channels && q < |reg.queues|
    requires ops != [] && ops[|ops| - 1].Poll?
    ensures Replay(reg, dramaId, q, ops).reg.queues[reg.channels[dramaId]] == []
    decreases |ops|
  {
    if |ops| == 1 {
      assert ops[0].Poll?;
      assert ops[1..] == [];
    } else {
      assert ops[1..][|ops| - 2] == ops[|ops| - 1];
      match ops[0]
      case Put(e) =>
        ReplayEndsDrained(Publish(reg, q, e), dramaId, q, ops[1..]);
      case Poll =>
        ReplayEndsDrained(GetProgress(reg, dramaId).reg, dramaId, q, ops[1..]);
    }
  }

  /**
   A client that keeps polling a freshly started job receives, over all its
   polls and what remains buffered, exactly the job's events in order; once
   it polls after the job's last put, it has received all of them.
   */
  lemma ClientSeesWholeTrace(reg: Registry, body: Option<Json>, ops: seq<Op>)
    requires Valid(reg)
    requires StartCrawl(reg, body).reply.Started?
    ensures var s := StartCrawl(reg, body);
            var r := Replay(s.reg, s.reply.dramaId, s.reply.queue, ops);
      && r.received + r.reg.queues[s.reply.queue] == Puts(ops)
      && (ops != [] && ops[|ops| - 1].Poll? ==> r.received == Puts(ops))
  {
    var s := StartCrawl(reg, body);
    ReplayConserves(s.reg, s.reply.dramaId, s.reply.queue, ops);
    if ops != [] && ops[|ops| - 1].Poll? {
      ReplayEndsDrained(s.reg, s.reply.dramaId, s.reply.queue, ops);
    }
  }

  /**
   Resubmitting a title replaces its queue: the client's polls never see an
   event the earlier job puts afterwards, and the first poll finds the new
   queue empty.
   */
  lemma ResubmissionOrphansEarlierJob(reg: Registry, body: Option<Json>, body': Option<Json>, ops: seq<Op>)
    requires Valid(reg)
    requires StartCrawl(reg, body).reply.Started?
    requires var s := StartCrawl(reg, body);
      && StartCrawl(s.reg, body').reply.Started?
      && StartCrawl(s.reg, body').reply.dramaId == s.reply.dramaId
    ensures var s := StartCrawl(reg, body);
            var s' := StartCrawl(s.reg, body');
      && s'.reply.queue != s.reply.queue
      && GetProgress(s'.reg, s.reply.dramaId).reply == Messages([])
      && Replay(s'.reg, s.reply.dramaId, s.reply.queue, ops).received == []
  {
    var s := StartCrawl(reg, body);
    var s' := StartCrawl(s.reg, body');
    ReplayConserves(s'.reg, s.reply.dramaId, s.reply.queue, ops);
  }

  /** Polling an id that was never submitted is not found, and changes nothing. */
  lemma UnknownIdNotFound(dramaId: int)
    ensures GetProgress(Initial, dramaId) == Polled(Initial, NotFound)
  {
  }

  /** A negative id is rejected without creating any queue. */
  lemma NegativeIdRejected(reg: Registry)
    ensures StartCrawl(reg, Some(JObj([("drama_id", JInt(-5))]))) == Submission(reg, InvalidId)
  {
  }
}

=== FILE: json.dfy ===
/**
 The value `response.json()` produces, and the few Python operations the core
 applies to it: `dict.get`, truthiness and comparison with the integer 1.
 */
module JsonValue {
  import opened Wrappers

  /**
   A decoded JSON document. An object keeps its members as the text lists
   them, repeated names included; `Lookup` and `DictItems` read them the way
   the Python dict that `json.loads` builds does. Non-integer numbers are not
   modelled.
   */
  datatype Json =
    | JNull
    | JBool(b: bool)
    | JInt(i: int)
    | JStr(s: string)
    | JList(items: seq<Json>)
    | JObj(fields: seq<(string, Json)>)

  /**
   The value a dict built from `fields` holds under `key`: that of the last
   member with that name, since a later member overwrites an earlier one.
   */
  function Lookup(fields: seq<(string, Json)>, key: string): (r: Option<Json>)
    ensures r.None? <==> forall k :: 0 <= k < |fields| ==> fields[k].0 != key
    ensures r.Some? ==>
      exists k :: 0 <= k < |fields| && fields[k] == (key, r.value)
                  && forall j :: k < j < |fields| ==> fields[j].0 != key
  {
    if fields == [] then None
    else if fields[|fields| - 1].0 == key then Some(fields[|fields| - 1].1)
    else
      var front := fields[..|fields| - 1];
      var r := Lookup(front, key);
      if r.Some? then
        ghost var k :| 0 <= k < |front| && front[k] == (key, r.value)
                       && forall j :: k < j < |front| ==> front[j].0 != key;
        assert fields[k] == (key, r.value);
        r
      else r
  }

  /** A later member decides the value of a name that occurs on both sides. */
  lemma {:induction false} LookupAppend(a: seq<(string, Json)>, b: seq<(string, Json)>, key: string)
    ensures Lookup(a + b, key) == if Lookup(b, key).Some? then Lookup(b, key) else Lookup(a, key)
    decreases |b|
  {
    if b == [] {
      assert a + b == a;
    } else {
      var c := a + b;
      assert c[|c| - 1] == b[|b| - 1];
      assert c[..|c| - 1] == a + b[..|b| - 1];
      LookupAppend(a, b[..|b| - 1], key);
    }
  }

  /** The members of `fields` not named `key`, in order. */
  function Without(fields: seq<(string, Json)>, key: string): (r: seq<(string, Json)>)
    ensures |r| <= |fields|
  {
    if fields == [] then []
    else (if fields[0].0 == key then [] else [fields[0]]) + Without(fields[1..], key)
  }

  /** Dropping the members named `other` leaves the value under every other name. */
  lemma {:induction false} LookupWithout(fields: seq<(string, Json)>, other: string, key: string)
    requires other != key
    ensures Lookup(Without(fields, other), key) == Lookup(fields, key)
  {
    if fields != [] {
      var head := if fields[0].0 == other then [] else [fields[0]];
      LookupWithout(fields[1..], other, key);
      LookupAppend(head, Without(fields[1..], other), key);
      assert fields == [fields[0]] + fields[1..];
      LookupAppend([fields[0]], fields[1..], key);
      assert Lookup([fields[0]], key) == (if fields[0].0 == key then Some(fields[0].1) else None);
      if fields[0].0 == other {
        assert Lookup(head, key) == None;
      }
    }
  }

  /** No name occurs twice. */
  predicate DistinctKeys(fields: seq<(string, Json)>) {
    forall i, j :: 0 <= i < j < |fields| ==> fields[i].0 != fields[j].0
  }

  /**
   The items of the dict built from `fields`, in its iteration order: each
   name once, at the position where it first occurs, with its last value.
   */
  function DictItems(fields: seq<(string, Json)>): (r: seq<(string, Json)>)
    ensures |r| <= |fields|
    decreases |fields|
  {
    if fields == [] then []
    else
      var key := fields[0].0;
      assert Lookup(fields, key).Some?;
      [(key, Lookup(fields, key).value)] + DictItems(Without(fields[1..], key))
  }

  /** The dict's items hold exactly the value `Lookup` gives under every name. */
  lemma {:induction false} DictItemsLookup(fields: seq<(string, Json)>, key: string)
    ensures Lookup(DictItems(fields), key) == Lookup(fields, key)
    decreases |fields|
  {
    if fields != [] {
      var first := fields[0].0;
      var rest := Without(fields[1..], first);
      var head := [(first, Lookup(fields, first).value)];
      assert DictItems(fields) == head + DictItems(rest);
      DictItemsLookup(rest, key);
      LookupAppend(head, DictItems(rest), key);
      LookupSingle((first, Lookup(fields, first).value), key);
      if key == first {
        WithoutDrops(fields[1..], first);
      } else {
        LookupWithout(fields[1..], first, key);
        LookupSkipsHead(fields, key);
      }
    }
  }

  lemma LookupSingle(m: (string, Json), key: string)
    ensures Lookup([m], key) == if m.0 == key then Some(m.1) else None
  {
  }

  /** A first member of another name does not affect the value. */
  lemma LookupSkipsHead(fields: seq<(string, Json)>, key: string)
    requires fields != [] && fields[0].0 != key
    ensures Lookup(fields, key) == Lookup(fields[1..], key)
  {
    assert fields == [fields[0]] + fields[1..];
    LookupAppend([fields[0]], fields[1..], key);
    LookupSingle(fields[0], key);
  }

  lemma {:induction false} WithoutDrops(fields: seq<(string, Json)>, key: string)
    ensures forall k :: 0 <= k < |Without(fields, key)| ==> Without(fields, key)[k].0 != key
  {
    if fields != [] {
      WithoutDrops(fields[1..], key);
    }
  }

  /** The dict never holds a name twice. */
  lemma {:induction false} DictItemsDistinct(fields: seq<(string, Json)>)
    ensures DistinctKeys(DictItems(fields))
    decreases |fields|
  {
    if fields != [] {
      var first := fields[0].0;
      var rest := Without(fields[1..], first);
      var r := DictItems(fields);
      var tail := DictItems(rest);
      assert r == [(first, Lookup(fields, first).value)] + tail;
      DictItemsDistinct(rest);
      DictItemsLookup(rest, first);
      WithoutDrops(fields[1..], first);
      assert Lookup(rest, first) == None;
      forall i, j | 0 <= i < j < |r|
        ensures r[i].0 != r[j].0
      {
        if i == 0 {
          assert r[j] == tail[j - 1];
        } else {
          assert r[i] == tail[i - 1] && r[j] == tail[j - 1];
        }
      }
    }
  }

  /** Without repeated names the dict's items are the members as written. */
  lemma {:induction false} DistinctDictItems(fields: seq<(string, Json)>)
    requires DistinctKeys(fields)
    ensures DictItems(fields) == fields
  {
    if fields != [] {
      var first := fields[0].0;
      var tail := fields[1..];
      assert forall k :: 0 <= k < |tail| ==> tail[k].0 != first by {
        forall k | 0 <= k < |tail|
          ensures tail[k].0 != first
        {
          assert tail[k] == fields[k + 1];
        }
      }
      WithoutAbsent(tail, first);
      assert Lookup(fields, first) == Some(fields[0].1) by {
        assert fields == [fields[0]] + tail;
        LookupAppend([fields[0]], tail, first);
      }
      assert DistinctKeys(tail) by {
        forall i, j | 0 <= i < j < |tail|
          ensures tail[i].0 != tail[j].0
        {
          assert tail[i] == fields[i + 1] && tail[j] == fields[j + 1];
        }
      }
      DistinctDictItems(tail);
    }
  }

  lemma {:induction false} WithoutAbsent(fields: seq<(string, Json)>, key: string)
    requires forall k :: 0 <= k < |fields| ==> fields[k].0 != key
    ensures Without(fields, key) == fields
  {
    if fields != [] {
      WithoutAbsent(fields[1..], key);
      assert fields == [fields[0]] + fields[1..];
    }
  }

  /** `obj.get(key, default)`. */
  function GetOr(obj: Json, key: string, default: Json): (v: Json)
    requires obj.JObj?
    ensures (forall k :: 0 <= k < |obj.fields| ==> obj.fields[k].0 != key) ==> v == default
    ensures (exists k :: 0 <= k < |obj.fields| && obj.fields[k].0 == key) ==> (key, v) in obj.fields
  {
    match Lookup(obj.fields, key)
    case Some(v) => v
    case None => default
  }

  /** Python truthiness: `None`, `False`, `0`, `""`, `[]` and `{}` are false. */
  predicate Truthy(v: Json) {
    match v
    case JNull => false
    case JBool(b) => b
    case JInt(i) => i != 0
    case JStr(s) => s != []
    case JList(items) => items != []
    case JObj(fields) => fields != []
  }

  /** Python's `v == 1`; `True == 1` holds in Python, so `true` qualifies too. */
  predicate IsOne(v: Json) {
    v == JInt(1) || v == JBool(true)
  }
}

=== FILE: numerals.dfy ===
/**
 Python's `int(text)` on a string, restricted to ASCII: surrounding whitespace is
 stripped, an optional sign may lead, the digits may be grouped by single
 underscores that sit between two digits, and there may be at most 4300 digits.
 */
module Numerals {
  import opened Wrappers

  /** The ASCII whitespace `int()` strips from both ends of its argument. */
  predicate IsSpace(c: char) {
    c == ' ' || c == '\t' || c == '\n' || c == '\r' || c == '\U{000B}' || c == '\U{000C}'
  }

  predicate IsDigit(c: char) {
    '0' <= c <= '9'
  }

  function DigitValue(c: char): (d: nat)
    requires IsDigit(c)
    ensures d < 10
  {
    (c as int) - ('0' as int)
  }

  function DigitChar(d: nat): (c: char)
    requires d < 10
    ensures IsDigit(c) && DigitValue(c) == d
  {
    (('0' as int) + d) as char
  }

  /** Drops leading whitespace; the result is a suffix of the input. */
  function TrimStart(s: string): (r: string)
    ensures |r| <= |s| && r == s[|s| - |r|..]
    ensures r == [] || !IsSpace(r[0])
    ensures forall i :: 0 <= i < |s| - |r| ==> IsSpace(s[i])
  {
    if s != [] && IsSpace(s[0]) then TrimStart(s[1..]) else s
  }

  /** Drops trailing whitespace; the result is a prefix of the input. */
  function TrimEnd(s: string): (r: string)
    ensures |r| <= |s| && r == s[..|r|]
    ensures r == [] || !IsSpace(r[|r| - 1])
    ensures forall i :: |r| <= i < |s| ==> IsSpace(s[i])
  {
    if s != [] && IsSpace(s[|s| - 1]) then TrimEnd(s[..|s| - 1]) else s
  }

  function Strip(s: string): string {
    TrimEnd(TrimStart(s))
  }

  /** A run of decimal digits in which every underscore stands between two digits. */
  predicate IsDigitRun(s: string) {
    && |s| > 0
    && IsDigit(s[0])
    && IsDigit(s[|s| - 1])
    && (forall i :: 0 <= i < |s| ==> IsDigit(s[i]) || s[i] == '_')
    && (forall i :: 0 < i < |s| && s[i] == '_' ==> s[i - 1] != '_')
  }

  /** The number a digit run denotes; underscores are only separators. */
  function RunValue(s: string): nat
    requires forall i :: 0 <= i < |s| ==> IsDigit(s[i]) || s[i] == '_'
  {
    if s == [] then 0
    else if s[|s| - 1] == '_' then RunValue(s[..|s| - 1])
    else 10 * RunValue(s[..|s| - 1]) + DigitValue(s[|s| - 1])
  }

  /**
   CPython's default cap on the digits `int()` converts from text
   (`sys.get_int_max_str_digits()`); a longer numeral raises `ValueError`.
   */
  const MaxStrDigits: nat := 4300

  /** The decimal digits of `s`; underscores do not count. */
  function DigitCount(s: string): nat {
    if s == [] then 0 else (if IsDigit(s[0]) then 1 else 0) + DigitCount(s[1..])
  }

  /** A numeral body `int()` converts: a digit run of at most `MaxStrDigits` digits. */
  predicate Convertible(run: string) {
    IsDigitRun(run) && DigitCount(run) <= MaxStrDigits
  }

  /** `int(s)`: `Some(n)` where Python returns `n`, `None` where it raises `ValueError`. */
  function ParseInt(s: string): (r: Option<int>)
    ensures r.Some? ==> exists i :: 0 <= i < |s| && IsDigit(s[i])
  {
    var r := ParseTrimmed(Strip(s));
    TrimmedParseHasDigit(Strip(s));
    StripKeepsCharacters(s);
    r
  }

  /** `int` on text whose surrounding whitespace is already gone: an optional sign, then a numeral body. */
  function ParseTrimmed(t: string): Option<int> {
    if |t| > 0 && (t[0] == '+' || t[0] == '-') then
      if Convertible(t[1..]) then
        var magnitude: int := RunValue(t[1..]);
        Some(if t[0] == '-' then -magnitude else magnitude)
      else None
    else if Convertible(t) then Some(RunValue(t))
    else None
  }

  /** Text made of the whitespace `int()` strips. */
  predicate Spaces(w: string) {
    forall i :: 0 <= i < |w| ==> IsSpace(w[i])
  }

  /** What may stand before the digits: nothing, or one sign. */
  predicate IsSign(sign: string) {
    sign == "" || sign == "+" || sign == "-"
  }

  function Signed(sign: string, magnitude: nat): int {
    if sign == "-" then -(magnitude as int) else magnitude
  }

  /** A sign followed by a convertible run parses to the signed value of the run. */
  lemma ParseTrimmedSigned(sign: string, run: string)
    requires IsSign(sign) && Convertible(run)
    ensures ParseTrimmed(sign + run) == Some(Signed(sign, RunValue(run)))
  {
    var t := sign + run;
    if sign == "" {
      assert t == run;
      assert !(t[0] == '+' || t[0] == '-');
    } else {
      assert t[0] == sign[0];
      assert t[1..] == run;
    }
  }

  /** Text without whitespace at either end converts as its trimmed form. */
  lemma ParseUnpadded(t: string)
    requires |t| > 0 && !IsSpace(t[0]) && !IsSpace(t[|t| - 1])
    ensures ParseInt(t) == ParseTrimmed(t)
  {
    StripNoSpaceEnds(t);
  }

  lemma ParseSignedRun(sign: string, run: string)
    requires IsSign(sign) && Convertible(run)
    ensures ParseInt(sign + run) == Some(Signed(sign, RunValue(run)))
  {
    var t := sign + run;
    assert t[|t| - 1] == run[|run| - 1];
    assert t[0] == '+' || t[0] == '-' || t[0] == run[0];
    ParseUnpadded(t);
    ParseTrimmedSigned(sign, run);
  }

  /**
   `int()` accepts whitespace, an optional sign, a digit run of at most
   `MaxStrDigits` digits (leading zeros and single underscores between digits
   allowed) and whitespace, and returns the signed value of the digits.
   */
  lemma ParseIntAccepts(pad: string, sign: string, run: string, pad': string)
    requires Spaces(pad) && Spaces(pad') && IsSign(sign) && Convertible(run)
    ensures ParseInt(pad + sign + run + pad') == Some(Signed(sign, RunValue(run)))
  {
    var t := sign + run;
    assert pad + sign + run + pad' == pad + t + pad';
    ParseIgnoresSpaces(pad, t, pad');
    ParseSignedRun(sign, run);
  }

  /** Trimmed text that converts is an optional sign followed by a convertible run. */
  lemma TrimmedShape(t: string)
    requires ParseTrimmed(t).Some?
    ensures var sign := if t[0] == '+' || t[0] == '-' then t[..1] else "";
      && IsSign(sign) && Convertible(t[|sign|..]) && t == sign + t[|sign|..]
      && ParseTrimmed(t) == Some(Signed(sign, RunValue(t[|sign|..])))
  {
    if t[0] == '+' || t[0] == '-' {
      assert t[..1] == [t[0]];
    } else {
      assert t[0..] == t;
    }
  }

  /** A suffix preceded only by whitespace: the text is that whitespace and the suffix. */
  lemma SpacesThenSuffix(s: string, u: string)
    requires |u| <= |s| && u == s[|s| - |u|..]
    requires forall i :: 0 <= i < |s| - |u| ==> IsSpace(s[i])
    ensures s == s[..|s| - |u|] + u
    ensures Spaces(s[..|s| - |u|])
  {
    var k := |s| - |u|;
    assert s == s[..k] + s[k..];
    assert forall i :: 0 <= i < k ==> s[..k][i] == s[i];
  }

  /** A prefix followed only by whitespace: the text is the prefix and that whitespace. */
  lemma PrefixThenSpaces(u: string, t: string)
    requires |t| <= |u| && t == u[..|t|]
    requires forall i :: |t| <= i < |u| ==> IsSpace(u[i])
    ensures u == t + u[|t|..]
    ensures Spaces(u[|t|..])
  {
    var k := |t|;
    assert u == u[..k] + u[k..];
    assert forall i :: 0 <= i < |u| - k ==> u[k..][i] == u[k + i];
  }

  lemma TrimStartSplits(s: string)
    ensures s == s[..|s| - |TrimStart(s)|] + TrimStart(s)
    ensures Spaces(s[..|s| - |TrimStart(s)|])
  {
    SpacesThenSuffix(s, TrimStart(s));
  }

  lemma TrimEndSplits(u: string)
    ensures u == TrimEnd(u) + u[|TrimEnd(u)|..]
    ensures Spaces(u[|TrimEnd(u)|..])
  {
    PrefixThenSpaces(u, TrimEnd(u));
  }

  /** Any text splits into its leading whitespace, its stripped form and its trailing whitespace. */
  lemma StripSplits(s: string)
    ensures var u := TrimStart(s);
      && |Strip(s)| <= |u| <= |s|
      && s == s[..|s| - |u|] + Strip(s) + u[|Strip(s)|..]
      && Spaces(s[..|s| - |u|]) && Spaces(u[|Strip(s)|..])
  {
    var u := TrimStart(s);
    TrimStartSplits(s);
    TrimEndSplits(u);
    Regroup(s, s[..|s| - |u|], u, Strip(s), u[|Strip(s)|..]);
  }

  lemma Regroup(s: string, a: string, u: string, t: string, b: string)
    requires s == a + u && u == t + b
    ensures s == a + t + b
  {
  }

  lemma ConcatRegroup(a: string, b: string, c: string, d: string)
    ensures a + (b + c) + d == a + b + c + d
  {
  }

  /** The parts of text whose stripped form converts: whitespace, sign, run, whitespace. */
  lemma NumeralParts(s: string) returns (pad: string, sign: string, run: string, pad': string)
    requires ParseTrimmed(Strip(s)).Some?
    ensures s == pad + sign + run + pad'
    ensures Spaces(pad) && IsSign(sign) && Convertible(run) && Spaces(pad')
    ensures ParseTrimmed(Strip(s)) == Some(Signed(sign, RunValue(run)))
  {
    var u := TrimStart(s);
    var t := Strip(s);
    StripSplits(s);
    TrimmedShape(t);
    pad := s[..|s| - |u|];
    pad' := u[|t|..];
    sign := if t[0] == '+' || t[0] == '-' then t[..1] else "";
    run := t[|sign|..];
    assert s == pad + (sign + run) + pad';
    ConcatRegroup(pad, sign, run, pad');
  }

  /**
   Conversely, `int()` accepts nothing else: text it converts is whitespace, an
   optional sign, a convertible digit run and whitespace, and the value is that
   of the run. So `"12x"`, `"1 2"`, `"1__0"` and `"_1"` raise.
   */
  lemma ParseIntShape(s: string)
    ensures ParseInt(s).Some? ==>
      exists pad, sign, run, pad' ::
        && s == pad + sign + run + pad'
        && Spaces(pad) && IsSign(sign) && Convertible(run) && Spaces(pad')
        && ParseInt(s) == Some(Signed(sign, RunValue(run)))
  {
    if ParseInt(s).Some? {
      assert ParseInt(s) == ParseTrimmed(Strip(s));
      var pad, sign, run, pad' := NumeralParts(s);
    }
  }

  /** `int("+5")` is 5: a plus sign is accepted. */
  lemma PlusSignedNumeral()
    ensures ParseInt("+5") == Some(5)
  {
    var r := "5";
    assert IsDigitRun(r);
    AllDigitsCount(r);
    assert r[..0] == [] && RunValue(r) == 5;
    assert "+5" == "" + "+" + r + "";
    ParseIntAccepts("", "+", r, "");
  }

  /** `int(" -42\\n")` is -42: a minus sign and surrounding whitespace are accepted. */
  lemma PaddedNegativeNumeral()
    ensures ParseInt(" -42\n") == Some(-42)
  {
    assert " -42\n" == " " + "-" + "42" + "\n";
    var r := "42";
    assert forall i :: 0 <= i < |r| ==> IsDigit(r[i]);
    AllDigitsCount(r);
    assert r[..1] == "4" && r[..1][..0] == "";
    assert RunValue(r[..1]) == 4;
    assert DigitValue(r[1]) == 2;
    assert RunValue(r) == 42;
    assert Spaces(" ") && Spaces("\n");
    ParseIntAccepts(" ", "-", r, "\n");
  }

  /** `int("007")` is 7: leading zeros are accepted. */
  lemma ZeroPaddedNumeral()
    ensures ParseInt("007") == Some(7)
  {
    var r := "007";
    assert forall i :: 0 <= i < |r| ==> IsDigit(r[i]);
    AllDigitsCount(r);
    assert r[..2] == "00" && r[..2][..1] == "0" && r[..2][..1][..0] == "";
    assert RunValue(r[..2][..1]) == 0;
    assert RunValue(r[..2]) == 0;
    assert DigitValue(r[2]) == 7;
    assert RunValue(r) == 7;
    assert r == "" + "" + r + "";
    ParseIntAccepts("", "", r, "");
  }

  /** `int("1_000")` is 1000: a single underscore between digits is a separator. */
  lemma SeparatedNumeral()
    ensures ParseInt("1_000") == Some(1000)
  {
    var r := "1_000";
    assert IsDigitRun(r);
    assert r[1..] == "_000" && r[1..][1..] == "000";
    AllDigitsCount("000");
    assert DigitCount(r) == 4;
    assert r[..4] == "1_00" && r[..4][..3] == "1_0" && r[..4][..3][..2] == "1_" && r[..4][..3][..2][..1] == "1";
    assert RunValue("1_") == 1;
    assert RunValue(r) == 1000;
    assert r == "" + "" + r + "";
    ParseIntAccepts("", "", r, "");
  }

  /** `int("12x")` and `int("1 2")` raise: a digit does not make other characters acceptable. */
  lemma StrayCharacterRejected()
    ensures ParseInt("12x") == None
    ensures ParseInt("1 2") == None
  {
    ParseUnpadded("12x");
    assert "12x"[2] == 'x';
    ParseUnpadded("1 2");
    assert "1 2"[1] == ' ';
  }

  /** `int("1__0")` and `int("_1")` raise: an underscore must stand alone between two digits. */
  lemma MisplacedSeparatorRejected()
    ensures ParseInt("1__0") == None
    ensures ParseInt("_1") == None
  {
    ParseUnpadded("1__0");
    assert "1__0"[2] == '_' && "1__0"[1] == '_';
    ParseUnpadded("_1");
  }

  /** In a string of digits alone, every character counts as a digit. */
  lemma {:induction false} AllDigitsCount(s: string)
    requires forall i :: 0 <= i < |s| ==> IsDigit(s[i])
    ensures DigitCount(s) == |s|
  {
    if s != [] {
      AllDigitsCount(s[1..]);
    }
  }

  /** A numeral longer than the cap is refused, however well formed. */
  lemma LongNumeralRejected(s: string)
    requires IsDigitRun(s) && DigitCount(s) > MaxStrDigits
    ensures ParseInt(s) == None
  {
    StripNoSpaceEnds(s);
  }

  /** Decimal rendering of a natural number, most significant digit first. */
  function ShowNat(n: nat): (r: string)
    ensures |r| > 0
    ensures forall i :: 0 <= i < |r| ==> IsDigit(r[i])
  {
    if n < 10 then [DigitChar(n)] else ShowNat(n / 10) + [DigitChar(n % 10)]
  }

  /** Decimal rendering of an integer, as Python's `str(n)` writes it. */
  function ShowInt(n: int): string {
    if n < 0 then "-" + ShowNat(-n) else ShowNat(n)
  }

  lemma {:induction false} RunValueShowNat(n: nat)
    ensures RunValue(ShowNat(n)) == n
  {
    if n >= 10 {
      var s := ShowNat(n);
      assert s[..|s| - 1] == ShowNat(n / 10);
      RunValueShowNat(n / 10);
    }
  }

  lemma StripNoSpaceEnds(s: string)
    requires |s| > 0 && !IsSpace(s[0]) && !IsSpace(s[|s| - 1])
    ensures Strip(s) == s
  {
  }

  lemma ShowNatIsRun(n: nat)
    ensures IsDigitRun(ShowNat(n))
  {
  }

  /** The decimal text of a natural number within the cap parses back to it. */
  lemma ParseShowNat(n: nat)
    requires |ShowNat(n)| <= MaxStrDigits
    ensures ParseTrimmed(ShowNat(n)) == Some(n)
  {
    var s := ShowNat(n);
    ShowNatIsRun(n);
    RunValueShowNat(n);
    AllDigitsCount(s);
    assert IsDigit(s[0]);
  }

  /** A minus sign before the decimal text of a natural number within the cap parses to its negation. */
  lemma ParseShowNegative(n: nat)
    requires |ShowNat(n)| <= MaxStrDigits
    ensures ParseTrimmed("-" + ShowNat(n)) == Some(-(n as int))
  {
    var s := "-" + ShowNat(n);
    assert s[1..] == ShowNat(n);
    ShowNatIsRun(n);
    RunValueShowNat(n);
    AllDigitsCount(ShowNat(n));
  }

  /**
   Parsing what `str(n)` prints gives back `n`, for every `n` with at most
   `MaxStrDigits` digits; `str(n)` itself raises beyond that.
   */
  lemma ParseShowRoundTrip(n: int)
    requires |ShowNat(if n < 0 then -n else n)| <= MaxStrDigits
    ensures ParseInt(ShowInt(n)) == Some(n)
  {
    var s := ShowInt(n);
    StripNoSpaceEnds(s);
    if n < 0 {
      ParseShowNegative(-n);
    } else {
      ParseShowNat(n);
    }
  }

  /** A numeral that parses holds a digit. */
  lemma TrimmedParseHasDigit(t: string)
    ensures ParseTrimmed(t).Some? ==> exists i :: 0 <= i < |t| && IsDigit(t[i])
  {
    if ParseTrimmed(t).Some? {
      if |t| > 0 && (t[0] == '+' || t[0] == '-') {
        assert IsDigit(t[1..][0]) && t[1..][0] == t[1];
      } else {
        assert IsDigit(t[0]);
      }
    }
  }

  /** Every character of the stripped text is a character of the original. */
  lemma StripKeepsCharacters(s: string)
    ensures forall i :: 0 <= i < |Strip(s)| ==> Strip(s)[i] == s[|s| - |TrimStart(s)| + i]
  {
  }

  /** Whitespace around a numeral does not change what it parses to. */
  lemma {:induction false} ParseIgnoresSpaces(pad: string, s: string, pad': string)
    requires forall i :: 0 <= i < |pad| ==> IsSpace(pad[i])
    requires forall i :: 0 <= i < |pad'| ==> IsSpace(pad'[i])
    ensures ParseInt(pad + s + pad') == ParseInt(s)
  {
    StripPadded(pad, s, pad');
  }

  lemma {:induction false} StripPadded(pad: string, s: string, pad': string)
    requires forall i :: 0 <= i < |pad| ==> IsSpace(pad[i])
    requires forall i :: 0 <= i < |pad'| ==> IsSpace(pad'[i])
    ensures Strip(pad + s + pad') == Strip(s)
  {
    if pad != [] {
      assert (pad + s + pad')[1..] == pad[1..] + s + pad';
      StripPadded(pad[1..], s, pad');
    } else if pad' != [] {
      var w := pad + s + pad';
      assert w == s + pad';
      TrimStartPadded(s, pad');
      var u := TrimStart(s);
      if TrimStart(s + pad') == u + pad' {
        TrimEndPadded(u, pad');
        assert Strip(s + pad') == TrimEnd(u + pad') == TrimEnd(u);
      } else {
        assert TrimStart(s + pad') == [] && u == [];
        assert Strip(s + pad') == TrimEnd([]) == Strip(s);
      }
    } else {
      assert pad + s + pad' == s;
    }
  }

  lemma {:induction false} TrimStartPadded(s: string, pad': string)
    requires |pad'| > 0
    requires forall i :: 0 <= i < |pad'| ==> IsSpace(pad'[i])
    ensures TrimStart(s + pad') == TrimStart(s) + pad' || (TrimStart(s) == [] && TrimStart(s + pad') == [])
  {
    if s == [] {
      TrimStartAllSpace(pad');
    } else if IsSpace(s[0]) {
      assert (s + pad')[1..] == s[1..] + pad';
      TrimStartPadded(s[1..], pad');
    }
  }

  lemma {:induction false} TrimStartAllSpace(s: string)
    requires forall i :: 0 <= i < |s| ==> IsSpace(s[i])
    ensures TrimStart(s) == []
  {
    if s != [] {
      TrimStartAllSpace(s[1..]);
    }
  }

  lemma {:induction false} TrimEndPadded(u: string, pad': string)
    requires forall i :: 0 <= i < |pad'| ==> IsSpace(pad'[i])
    ensures TrimEnd(u + pad') == TrimEnd(u)
  {
    if pad' != [] {
      var w := u + pad';
      assert w[|w| - 1] == pad'[|pad'| - 1];
      assert w[..|w| - 1] == u + pad'[..|pad'| - 1];
      assert TrimEnd(w) == TrimEnd(w[..|w| - 1]);
      TrimEndPadded(u, pad'[..|pad'| - 1]);
    } else {
      assert u + pad' == u;
    }
  }
}

=== FILE: search.dfy ===
/**
 Title search (`search_drama`) and lookup by name (`get_drama_by_name`). The
 search reply's `Datas` items are kept in order when they carry a truthy `id`
 whose title has at least one paid episode; the episode lookup for each item
 is the catalog reply for that id.
 */
module Search {
  import opened Wrappers
  import opened JsonValue
  import opened Catalog

  /** One formatted hit: the item's `id`, `name`, `author` and `cover`. */
  datatype Summary = Summary(dramaId: Json, name: Json, author: Json, cover: Json)

  /** The author reported when an item has none. */
  const UnknownAuthor := JStr("未知")

  /**
   A search body whose `Datas` is the list `items`: a dict with a truthy
   `success` and an `info`, `{}` when missing, that is a dict whose `Datas`,
   `[]` when missing, is that list.
   */
  predicate ListsItems(body: Json, items: seq<Json>) {
    && body.JObj?
    && Truthy(GetOr(body, "success", JNull))
    && GetOr(body, "info", JObj([])).JObj?
    && GetOr(GetOr(body, "info", JObj([])), "Datas", JList([])) == JList(items)
  }

  /**
   The `Datas` items of a search reply. A failed request, a falsy `success`, a
   non-dict body or `info` give nothing; so does a `Datas` that is not a list,
   because iterating it either fails or yields only strings, each of which is
   skipped.
   */
  function ResultItems(resp: Response): (items: seq<Json>)
    ensures items != [] ==>
      && resp.Decoded? && resp.body.JObj?
      && Lookup(resp.body.fields, "success").Some?
      && Truthy(Lookup(resp.body.fields, "success").value)
    ensures forall xs :: resp.Decoded? && ListsItems(resp.body, xs) ==> items == xs
  {
    match resp
    case Unreachable => []
    case Decoded(data) =>
      if !data.JObj? || !Truthy(GetOr(data, "success", JNull)) then []
      else
        var info := GetOr(data, "info", JObj([]));
        if !info.JObj? then []
        else
          match GetOr(info, "Datas", JList([]))
          case JList(items) => items
          case _ => []
  }

  /** The title the catalog answers for `dramaId` has at least one paid episode. */
  predicate HasPaidEpisodes(catalog: Json -> Response, dramaId: Json) {
    GetDramaSounds(catalog(dramaId)) != []
  }

  /** The lookup `search_drama` makes for each id, as a predicate on ids. */
  function PaidLookup(catalog: Json -> Response): Json -> bool {
    id => HasPaidEpisodes(catalog, id)
  }

  /** The item is reported: a dict with a truthy `id` for which `paid` holds. */
  predicate Listed(item: Json, paid: Json -> bool) {
    && item.JObj?
    && Truthy(GetOr(item, "id", JNull))
    && paid(GetOr(item, "id", JNull))
  }

  function Summarize(item: Json): Summary
    requires item.JObj?
  {
    Summary(GetOr(item, "id", JNull), GetOr(item, "name", JNull),
            GetOr(item, "author", UnknownAuthor), GetOr(item, "cover", JNull))
  }

  /**
   The formatting loop: one summary per listed item, in item order. `paid`
   stands for the episode lookup the loop makes for each id.
   */
  function Collect(items: seq<Json>, paid: Json -> bool): (r: seq<Summary>)
    ensures |r| <= |items|
    ensures forall k :: 0 <= k < |r| ==> Truthy(r[k].dramaId) && paid(r[k].dramaId)
  {
    if items == [] then []
    else (if Listed(items[0], paid) then [Summarize(items[0])] else []) + Collect(items[1..], paid)
  }

  /** A summary is reported exactly when some listed item formats to it. */
  lemma {:induction false} CollectMembers(items: seq<Json>, paid: Json -> bool, s: Summary)
    ensures s in Collect(items, paid) <==>
      exists i :: 0 <= i < |items| && Listed(items[i], paid) && Summarize(items[i]) == s
  {
    if items != [] {
      var head := if Listed(items[0], paid) then [Summarize(items[0])] else [];
      var rest := items[1..];
      assert Collect(items, paid) == head + Collect(rest, paid);
      CollectMembers(rest, paid, s);
      if s in Collect(rest, paid) {
        var i :| 0 <= i < |rest| && Listed(rest[i], paid) && Summarize(rest[i]) == s;
        assert items[i + 1] == rest[i];
      }
      if exists i :: 0 <= i < |items| && Listed(items[i], paid) && Summarize(items[i]) == s {
        var i :| 0 <= i < |items| && Listed(items[i], paid) && Summarize(items[i]) == s;
        if i > 0 {
          assert rest[i - 1] == items[i];
        }
      }
    }
  }

  /** Collecting from a concatenation collects each part, in order. */
  lemma {:induction false} CollectAppend(a: seq<Json>, b: seq<Json>, paid: Json -> bool)
    ensures Collect(a + b, paid) == Collect(a, paid) + Collect(b, paid)
  {
    if a != [] {
      var head := if Listed(a[0], paid) then [Summarize(a[0])] else [];
      assert (a + b)[0] == a[0];
      assert (a + b)[1..] == a[1..] + b;
      assert Collect(a + b, paid) == head + Collect(a[1..] + b, paid);
      CollectAppend(a[1..], b, paid);
      assert Collect(a, paid) == head + Collect(a[1..], paid);
    } else {
      assert a + b == b;
    }
  }

  /** `search_drama`: the reported titles for a search reply. */
  function SearchDrama(resp: Response, catalog: Json -> Response): (r: seq<Summary>)
    ensures |r| <= |ResultItems(resp)|
    ensures forall k :: 0 <= k < |r| ==> Truthy(r[k].dramaId) && HasPaidEpisodes(catalog, r[k].dramaId)
  {
    Collect(ResultItems(resp), PaidLookup(catalog))
  }

  /**
   For a search body listing `items`, the reported titles are the listed items'
   summaries in item order: a summary is reported exactly when some item is a
   dict with a truthy id whose title has paid episodes, and formats to it.
   */
  lemma SearchKeepsListedItems(body: Json, items: seq<Json>, catalog: Json -> Response, s: Summary)
    ensures ListsItems(body, items) ==>
      && SearchDrama(Decoded(body), catalog) == Collect(items, PaidLookup(catalog))
      && (s in SearchDrama(Decoded(body), catalog) <==>
          exists i :: 0 <= i < |items| && Listed(items[i], PaidLookup(catalog)) && Summarize(items[i]) == s)
  {
    CollectMembers(items, PaidLookup(catalog), s);
  }

  /** A search body whose `info` is not a dict, or whose `Datas` is not a list, reports nothing. */
  lemma UnlistedSearchGivesNothing(body: Json, catalog: Json -> Response)
    ensures body.JObj? && !GetOr(body, "info", JObj([])).JObj? ==> SearchDrama(Decoded(body), catalog) == []
    ensures body.JObj? && GetOr(body, "info", JObj([])).JObj?
            && !GetOr(GetOr(body, "info", JObj([])), "Datas", JList([])).JList?
            ==> SearchDrama(Decoded(body), catalog) == []
    ensures !body.JObj? || !Truthy(GetOr(body, "success", JNull)) ==> SearchDrama(Decoded(body), catalog) == []
  {
  }

  /** Index of the first summary whose name equals `name` exactly. */
  function FirstNamed(name: string, results: seq<Summary>): (k: Option<nat>)
    ensures k.Some? ==>
      && k.value < |results|
      && results[k.value].name == JStr(name)
      && forall j :: 0 <= j < k.value ==> results[j].name != JStr(name)
    ensures k.None? ==> forall j :: 0 <= j < |results| ==> results[j].name != JStr(name)
  {
    if results == [] then None
    else if results[0].name == JStr(name) then Some(0)
    else
      match FirstNamed(name, results[1..])
      case None => None
      case Some(k) => Some(k + 1)
  }

  /**
   The choice `get_drama_by_name` makes among search results: the first exact
   name match, else the first result, else nothing.
   */
  function PickByName(name: string, results: seq<Summary>): (r: Option<Summary>)
    ensures r.None? <==> results == []
    ensures forall k :: 0 <= k < |results| && results[k].name == JStr(name)
                        && (forall j :: 0 <= j < k ==> results[j].name != JStr(name))
                        ==> r == Some(results[k])
    ensures (forall j :: 0 <= j < |results| ==> results[j].name != JStr(name)) && results != []
            ==> r == Some(results[0])
  {
    if results == [] then None
    else
      match FirstNamed(name, results)
      case Some(k) => Some(results[k])
      case None => Some(results[0])
  }

  /** `get_drama_by_name`: a search for `name`, then the pick among its results. */
  function GetDramaByName(name: string, resp: Response, catalog: Json -> Response): (r: Option<Summary>)
    ensures r.Some? ==> r.value in SearchDrama(resp, catalog) && Truthy(r.value.dramaId)
    ensures r.None? <==> SearchDrama(resp, catalog) == []
  {
    PickByName(name, SearchDrama(resp, catalog))
  }

  /**
   A title found by name comes from a search item that is a dict with a truthy
   id whose title has paid episodes.
   */
  lemma FoundTitleIsListed(name: string, resp: Response, catalog: Json -> Response)
    ensures var items := ResultItems(resp);
            var r := GetDramaByName(name, resp, catalog);
      r.Some? ==>
        exists i :: 0 <= i < |items| && Listed(items[i], PaidLookup(catalog)) && Summarize(items[i]) == r.value
  {
    var r := GetDramaByName(name, resp, catalog);
    if r.Some? {
      CollectMembers(ResultItems(resp), PaidLookup(catalog), r.value);
    }
  }
}

=== FILE: sequences.dfy ===
/** Order-preserving filtering of sequences, the shape of Python's list comprehension with an `if`. */
module Sequences {

  /** The elements of `xs` that satisfy `keep`, in their original order. */
  function Filter<T>(xs: seq<T>, keep: T -> bool): (r: seq<T>)
    ensures |r| <= |xs|
    ensures forall i :: 0 <= i < |r| ==> keep(r[i])
  {
    if xs == [] then []
    else (if keep(xs[0]) then [xs[0]] else []) + Filter(xs[1..], keep)
  }

  /** Each element occurs in the result as often as in the input if it is kept, and never otherwise. */
  lemma {:induction false} FilterCounts<T>(xs: seq<T>, keep: T -> bool, x: T)
    ensures multiset(Filter(xs, keep))[x] == if keep(x) then multiset(xs)[x] else 0
  {
    if xs != [] {
      var head := if keep(xs[0]) then [xs[0]] else [];
      assert xs == [xs[0]] + xs[1..];
      assert multiset(xs) == multiset([xs[0]]) + multiset(xs[1..]);
      assert multiset(Filter(xs, keep)) == multiset(head) + multiset(Filter(xs[1..], keep));
      FilterCounts(xs[1..], keep, x);
    }
  }

  /** Membership in the filtered sequence: in the input and kept. */
  lemma FilterMembers<T>(xs: seq<T>, keep: T -> bool, x: T)
    ensures x in Filter(xs, keep) <==> x in xs && keep(x)
  {
    FilterCounts(xs, keep, x);
    assert x in Filter(xs, keep) <==> multiset(Filter(xs, keep))[x] > 0;
    assert x in xs <==> multiset(xs)[x] > 0;
  }

  /** Filtering a concatenation filters each part and keeps them in order. */
  lemma {:induction false} FilterAppend<T>(a: seq<T>, b: seq<T>, keep: T -> bool)
    ensures Filter(a + b, keep) == Filter(a, keep) + Filter(b, keep)
  {
    if a != [] {
      var head := if keep(a[0]) then [a[0]] else [];
      assert (a + b)[0] == a[0];
      assert (a + b)[1..] == a[1..] + b;
      assert Filter(a + b, keep) == head + Filter(a[1..] + b, keep);
      FilterAppend(a[1..], b, keep);
      assert Filter(a, keep) == head + Filter(a[1..], keep);
    } else {
      assert a + b == b;
    }
  }
}

=== FILE: wrappers.dfy ===
/** The optional-value datatype shared by the rest of the model. */
module Wrappers {

  /** A value that may be absent: Python's `None` versus a present value. */
  datatype Option<+T> = None | Some(value: T)
}
